=== FILE: README.md ===
# csvstream in Dafny

A model of csvstream, a small C++ CSV reader, in its two versions:

- `csvstream.hpp`: a six-state tokenizer with backslash escapes and `\n`, `\r`, `\r\n` line endings, strict or lenient width checking, and rows as a map or as an ordered vector of (column, value) pairs.
- `csvstream.h`: a two-state tokenizer with a configurable newline character and no escapes. The width check is always on and rows are maps.

Both readers take the first line of the stream as the header. Each later line is checked against the header width and turned into a row.

The stream is the class `Stream.CharStream`: a text (`seq<char>`) and a read cursor, with `Get` and a one-character `Unget`. The stream's good/fail state appears only as the boolean a tokenizer returns.

Each tokenizer is an imperative method (`Tokenizer.ReadCsvLine`, `LegacyTokenizer.ReadCsvLine`). Its loop is proved against a pure function `Scan` over the unread text. `Scan` returns a `Line`: the fields, the number of characters taken from the stream after any pushback, and the returned flag.

The reader classes (`Reader.CsvStream`, `LegacyReader.CsvStream`) hold the stream, the header and the line counter. Their extraction methods are proved against the pure row functions of module `Rows`. Exceptions are values of `CsvTypes.CsvError`:

- `EmptyHeader`: no header line could be read.
- `Mismatch(lineNo, expected, actual)`: a row's width differs from the header's.
- `WritePastEnd`: only for the pair extractor as written (see Findings).

A row extraction yields an `Extracted` value: `Row`, `EndOfInput` (with the row the call leaves behind) or `Failed`.

The library has no writer. To state round-trip properties, the model adds two reference writers: `CsvTypes.EncodeLine` wraps every field in double quotes and joins the fields with the delimiter; `CsvTypes.JoinLine` joins unquoted fields with the delimiter.

Files:

- `csv_types.dfy`: shared types.
- `char_stream.dfy`: the stream.
- `tokenizer.dfy` and `tokenizer_props.dfy`: the csvstream.hpp tokenizer and its properties.
- `legacy_tokenizer.dfy` and `legacy_tokenizer_props.dfy`: the csvstream.h tokenizer and its properties.
- `rows.dfy`: reconciliation and row building.
- `reader.dfy` and `legacy_reader.dfy`: the two reader classes.

Two behaviours of the code differ from common CSV conventions, and the model keeps them as the code has them:

- After a line terminator, the code consumes one following `\n` whatever the terminator was, not only the `\n` of a `\r\n` pair. So `\n\n` swallows an empty line (`TokenizerProps.BlankLineSwallowed`).
- A doubled quote `""` is not an escaped quote. Every unescaped `"` only toggles quoting (`TokenizerProps.DoubledQuoteIsNoEscape`).

## Model

| member | source | states |
|---|---|---|
| Stream.CharStream.Get | csvstream.hpp:138 | `is.get(c)`: fails exactly at the end of the text and then leaves the cursor where it is; otherwise returns the next character and consumes it |
| Stream.CharStream.Unget | csvstream.hpp:204 | `is.unget()`: the character just read becomes unread again |
| Tokenizer.Scan | csvstream.hpp:134-216 | fields are never removed: the field count never shrinks; no more characters are consumed than remain; the flag is false only when the end of input comes in state BEGIN |
| Tokenizer.ReadLine | csvstream.hpp:125-226 | a tokenizer call returns false exactly when the source is already exhausted, and then the result is `[""]` with nothing consumed; otherwise at least one character is consumed; there is always at least one field |
| Tokenizer.ReadCsvLine | csvstream.hpp:125-226 | the six-state loop over the stream (BEGIN falling through to UNQUOTED, pushback in END) returns exactly the fields and flag of `ReadLine` and advances the cursor by exactly what it consumed |
| TokenizerProps.ScanKeepsClosedFields | csvstream.hpp:151-195 | fields already closed by a delimiter never change, and the open field is only ever appended to (it is a prefix of what it becomes) |
| TokenizerProps.ScanFieldCount | csvstream.hpp:151-195 | from any state but END, the number of fields added equals the number of unquoted, unescaped delimiters read before the first unquoted line terminator |
| TokenizerProps.FieldCount | csvstream.hpp:158-160 | a line has one field more than it has delimiters read outside quotes and not right after a backslash |
| TokenizerProps.ScanNoQuotes | csvstream.hpp:151-195 | on text without backslashes, starting from a state that is not escaped, no step adds a double quote to a field |
| TokenizerProps.QuotesNeverKept | csvstream.hpp:152-154 | corollary for a line without backslashes: no field contains `"` |
| TokenizerProps.QuotesOnlyEscaped | csvstream.hpp:151-195 | whatever the input, every `"` in a field directly follows a `\` in that field (a consequence of EscapesOnly) |
| TokenizerProps.CompleteQuotes | csvstream.hpp:151-195 | in a field made of escape pairs and of characters other than `\` and `"`, every `"` directly follows a `\` (what lets QuotesOnlyEscaped follow from EscapesOnly) |
| TokenizerProps.StepKeepsEscapes | csvstream.hpp:151-195 | one tokenizer step keeps the invariant: closed fields are made of escape pairs and of characters other than `\` and `"`, and so is the open field, with one trailing `\` exactly in the escaped states |
| TokenizerProps.ScanKeepsEscapes | csvstream.hpp:151-195 | from any state satisfying that invariant, every field of the result but the last is made of escape pairs and ordinary characters, and the last one too, possibly with one trailing `\` |
| TokenizerProps.EscapesOnly | csvstream.hpp:151-195 | whatever the input, an unescaped `"` is never kept: every field is a sequence of escape pairs (`\` and the character after it, kept whatever it is) and of characters other than `\` and `"`; only the last field may end in a lone `\`, and then the call read the whole text and its last character is that `\` |
| TokenizerProps.ScanLoneBackslash | csvstream.hpp:134-216 | from any state satisfying the escape invariant, a last field that is not a sequence of escape pairs and plain characters only arises when the scan read all of its input and that input ends in `\` (or was empty and the scan started right after a backslash) |
| TokenizerProps.EscapedBackslashThenQuote | csvstream.hpp:151-181 | after an escaped backslash `\\`, a `"` opens quoting and is not kept, so a field `\\"x` cannot come out |
| TokenizerProps.EscapedPair | csvstream.hpp:172-195 | a backslash is kept and the character after it is appended whatever it is, inside or outside quotes, and the quoting state is the same afterwards |
| TokenizerProps.ScanStopsAfterTerminator | csvstream.hpp:161-165 | from any state but END, a line that stops before the end of the text stops right after an `\n` or `\r` |
| TokenizerProps.StopsAfterTerminator | csvstream.hpp:197-208 | when the text is not used up, the last consumed character is `\n` or `\r` |
| TokenizerProps.ScanStopPoint | csvstream.hpp:151-208 | from any state but END, the characters consumed are exactly those up to the first `\n` or `\r` read outside quotes and not after a backslash (or the whole text when there is none), plus one `\n` right after it |
| TokenizerProps.ExactStop | csvstream.hpp:161-208 | a call consumes exactly its line up to the first unquoted, unescaped terminator, plus a single following `\n`; any other following character is pushed back and left unread |
| TokenizerProps.QuotedContent | csvstream.hpp:178-189 | inside quotes, every character of a field without `"` or `\` is content, the delimiter and line terminators included, up to the closing quote |
| TokenizerProps.QuotedField | csvstream.hpp:151-154 | a whole quoted field adds exactly its content to the current field |
| TokenizerProps.Separator | csvstream.hpp:158-160 | an unquoted delimiter opens a new empty field |
| TokenizerProps.QuotedThenSeparator | csvstream.hpp:151-160 | a quoted field and the delimiter after it close that field with exactly its content and open a new empty one |
| TokenizerProps.LeadingField | csvstream.hpp:151-195 | a quoted field followed by a delimiter adds that field and then reads the rest of the line |
| TokenizerProps.EncodedFields | csvstream.hpp:151-195 | a sequence of quoted fields joined by the delimiter yields exactly those fields, whatever text follows |
| TokenizerProps.LineEnd | csvstream.hpp:197-208 | after an unquoted `\n` or `\r` the line ends; one following `\n` is consumed with it, any other character is pushed back; `\r\n` counts as one terminator |
| TokenizerProps.EncodedLine | csvstream.hpp:125-195 | a tokenizer call on a reference-encoded line reads exactly its fields and continues, unquoted, with what follows |
| TokenizerProps.RoundTrip | csvstream.hpp:125-226 | the reference encoding of fields without `"` or `\`, ended by `\n`, `\r`, `\r\n` or the end of the text, reads back as exactly those fields and consumes exactly that line, when a lone `\n` or `\r` is not followed by `\n` (see BlankLineSwallowed) |
| TokenizerProps.BlankLineSwallowed | csvstream.hpp:197-200 | after a line ending in `\n`, a following empty line is consumed with the terminator and never read as a line |
| TokenizerProps.QuotedDelimiterKept | csvstream.hpp:178-189 | `"4,44"` reads as the single field `4,44` |
| TokenizerProps.DoubledQuoteIsNoEscape | csvstream.hpp:179-181 | `"a""b"` reads as the single field `ab` |
| TokenizerProps.BareContent | csvstream.hpp:166-168 | outside quotes, a field without `"`, `\`, the delimiter or a terminator is appended to the open field character by character, exactly as it is |
| TokenizerProps.BareThenSeparator | csvstream.hpp:158-169 | an unquoted field and the delimiter after it close that field with exactly its content and open a new empty one |
| TokenizerProps.BareLeadingField | csvstream.hpp:151-169 | an unquoted field followed by a delimiter adds exactly that field and then reads the rest of the line |
| TokenizerProps.JoinedFields | csvstream.hpp:151-169 | unquoted fields joined by the delimiter yield exactly those fields, whatever text follows |
| TokenizerProps.BareRoundTrip | csvstream.hpp:125-226 | unquoted fields without `"`, `\`, the delimiter or terminators, joined by the delimiter and ended by `\n`, `\r`, `\r\n` or the end of the text, read back as exactly those fields and consume exactly that line, when a lone `\n` or `\r` is not followed by `\n`; an empty text is the end of the input |
| TokenizerProps.BareLines | csvstream.hpp:158-165 | `1,2,3\r` reads as `1`, `2`, `3`, and `,,` as three empty fields |
| LegacyTokenizer.Scan | csvstream.h:42-76 | fields are never removed: the field count never shrinks; the flag is true exactly when some character was extracted |
| LegacyTokenizer.ReadLine | csvstream.h:30-85 | returns false exactly when no character could be extracted, and then the result is `[""]`; otherwise at least one character is consumed; there is always at least one field |
| LegacyTokenizer.ReadCsvLine | csvstream.h:30-85 | the two-state loop with its `extracted_anything` flag returns exactly the fields and flag of `ReadLine` and advances the cursor by exactly what it consumed |
| LegacyTokenizerProps.ScanKeepsClosedFields | csvstream.h:45-70 | fields already closed by a delimiter never change, and the open field is only ever appended to (it is a prefix of what it becomes) |
| LegacyTokenizerProps.ScanFieldCount | csvstream.h:45-70 | the number of fields added equals the number of delimiters read outside quotes before the first unquoted newline |
| LegacyTokenizerProps.FieldCount | csvstream.h:49-50 | a line has one field more than it has delimiters read outside quotes |
| LegacyTokenizerProps.ScanNoQuotes | csvstream.h:45-70 | no state adds a double quote to a field |
| LegacyTokenizerProps.QuotesNeverKept | csvstream.h:46-48 | whatever the input, no field contains `"`: there are no escapes and every quote toggles quoting |
| LegacyTokenizerProps.ScanStopsAtNewline | csvstream.h:51-55 | a line that stops before the end of the text stops right after the newline character |
| LegacyTokenizerProps.StopsAtNewline | csvstream.h:51-58 | only the configured newline ends a line outside quotes, and it is consumed |
| LegacyTokenizerProps.ScanStopPoint | csvstream.h:42-76 | from either state, the characters consumed are exactly those up to and including the first newline read outside quotes, or the whole text when there is none |
| LegacyTokenizerProps.ExactStop | csvstream.h:51-55 | a call consumes exactly its line up to and including the first unquoted newline, and no character after it |
| LegacyTokenizerProps.QuotedContent | csvstream.h:62-70 | inside quotes every character but `"` is content, the delimiter and the newline included |
| LegacyTokenizerProps.QuotedField | csvstream.h:46-48 | a whole quoted field adds exactly its content to the current field |
| LegacyTokenizerProps.Separator | csvstream.h:49-50 | an unquoted delimiter opens a new empty field |
| LegacyTokenizerProps.QuotedThenSeparator | csvstream.h:45-50 | a quoted field and the delimiter after it close that field with exactly its content and open a new empty one |
| LegacyTokenizerProps.LeadingField | csvstream.h:45-70 | a quoted field followed by a delimiter adds that field and then reads the rest of the line |
| LegacyTokenizerProps.EncodedFields | csvstream.h:45-70 | quoted fields joined by the delimiter yield exactly those fields, whatever text follows |
| LegacyTokenizerProps.EncodedLine | csvstream.h:30-76 | a tokenizer call on a reference-encoded line reads exactly its fields and continues, unquoted, with what follows |
| LegacyTokenizerProps.RoundTrip | csvstream.h:30-85 | the reference encoding of quote-free fields, ended by the newline or by the end of the text, reads back as exactly those fields, consuming exactly that line, whatever follows |
| LegacyTokenizerProps.CarriageReturnThenNewline | csvstream.h:51-58 | outside quotes `\r` is appended as content and the `\n` after it ends the line |
| LegacyTokenizerProps.CarriageReturnKept | csvstream.h:51-58 | with newline `\n`, a `\r\n` ending leaves a trailing `\r` on the last field |
| LegacyTokenizerProps.BareContent | csvstream.h:56-59 | outside quotes, a field without `"`, the delimiter or the newline is appended to the open field character by character, exactly as it is |
| LegacyTokenizerProps.BareThenSeparator | csvstream.h:49-59 | an unquoted field and the delimiter after it close that field with exactly its content and open a new empty one |
| LegacyTokenizerProps.BareLeadingField | csvstream.h:45-60 | an unquoted field followed by a delimiter adds exactly that field and then reads the rest of the line |
| LegacyTokenizerProps.JoinedFields | csvstream.h:45-60 | unquoted fields joined by the delimiter yield exactly those fields, whatever text follows |
| LegacyTokenizerProps.BareRoundTrip | csvstream.h:30-85 | unquoted fields without `"`, the delimiter or the newline, joined by the delimiter and ended by the newline or the end of the text, read back as exactly those fields and consume exactly that line; an empty text is the end of the input |
| LegacyTokenizerProps.BareLines | csvstream.h:49-59 | `a,b,c\n` reads as `a`, `b`, `c`, and `,,` as three empty fields |
| Rows.Resize | csvstream.hpp:249-251 | `data.resize(width)`: exactly `width` fields, the first ones kept, the missing ones `""` |
| Rows.Reconcile | csvstream.hpp:246-261 | lenient mode never fails and yields the line truncated or padded to the header width; strict mode fails exactly on a width mismatch, with `Mismatch(lineNo, header size, data size)`, and otherwise keeps the line as it is |
| Rows.ZipMapKeys | csvstream.hpp:263-266 | the map built in index order has one key per distinct column name and no other |
| Rows.ZipMapLastWins | csvstream.hpp:263-266 | a column name maps to the value at its last position: with duplicate names, the later value overwrites the earlier one |
| Rows.CombineMap | csvstream.hpp:263-266 | the map loop builds exactly the map of `row[header[i]] = data[i]` applied in index order |
| Rows.CombinePairs | csvstream.hpp:299-302 | the pair loop sets position `i` to `(header[i], data[i])` for every datum and leaves the other positions as they were |
| Rows.MapRow | csvstream.hpp:246-266 | an associative row fails exactly in strict mode on a width mismatch, with that mismatch |
| Rows.MapRowContents | csvstream.hpp:263-266 | a successful associative row has exactly the header's names as keys, and each maps to the reconciled datum at the name's last position |
| Rows.PairRow | csvstream.hpp:282-302 | an ordered row fails exactly in strict mode on a width mismatch; otherwise it has one pair per header position, in order, duplicates kept, the value being the datum or `""` |
| Rows.PoliciesAgree | csvstream.hpp:246-261 | on a line as wide as the header, strict and lenient mode give the same result in both shapes |
| Rows.PairRowAsWritten | csvstream.hpp:272-305 | the pair extraction as the code has it writes past the end of the row exactly when the reader is strict and the line is longer than the header; otherwise the row is as wide as the header, position `i` holds `(header[i], data[i])` for every datum, and the positions after the data hold `("","")` in strict mode (the check never rejects a short line) or `(header[i], "")` in lenient mode |
| Rows.PairCheckNeverFires | csvstream.hpp:289-297 | the width check of the pair extraction as written never reports a mismatch |
| Rows.ShortLineAccepted | csvstream.hpp:289-302 | strict, header `a,b`, line `1`: the code as written yields `[(a,1),("","")]` where the map extraction and the corrected pair extraction throw `Mismatch(1, 2, 1)` |
| Rows.LongLineWritesPastEnd | csvstream.hpp:299-302 | strict, header `a`, line `1,2`: the code as written writes past the end of the row |
| Reader.CsvStream.constructor | csvstream.hpp:56-61 | the stream constructor stores the stream, delimiter and policy, with line counter 0 |
| Reader.CsvStream.ReadHeader | csvstream.hpp:229-234 | the header becomes the first tokenized line; it reports whether a line could be read |
| Reader.CsvStream.FromStream | csvstream.hpp:56-63 | construction fails with `EmptyHeader` exactly when the stream is already exhausted; otherwise it yields a fresh reader whose header is the first line (never empty) and whose line counter is 0 |
| Reader.CsvStream.GetHeader | csvstream.hpp:76-78 | the header, never empty |
| Reader.CsvStream.ExtractMapRow | csvstream.hpp:237-269 | at the end of the input: an empty row, line counter unchanged; otherwise the counter advances by one before the check and the result is the associative row of the line (or its mismatch) |
| Reader.CsvStream.ExtractPairRow | csvstream.hpp:272-305 | at the end of the input: one empty pair per column, line counter unchanged; otherwise the counter advances by one and the result is the ordered row of the line, with the corrected width check |
| LegacyReader.CsvStream.constructor | csvstream.h:113-115 | the stream constructor stores the stream, delimiter and newline, with line counter 0 |
| LegacyReader.CsvStream.ReadHeader | csvstream.h:185-190 | the header becomes the first tokenized line; it reports whether a line could be read |
| LegacyReader.CsvStream.FromStream | csvstream.h:113-117 | construction fails with `EmptyHeader` exactly when the stream is already exhausted; otherwise it yields a fresh reader whose header is the first line and whose line counter is 0 |
| LegacyReader.CsvStream.GetHeader | csvstream.h:130-132 | the header, never empty |
| LegacyReader.CsvStream.ExtractRow | csvstream.h:135-160 | the row is cleared first; at the end of the input it stays empty and the line counter is unchanged; otherwise the counter advances by one before the check, any width mismatch throws `Mismatch` with that line number, and the result is the associative row of the line with the width check always on |

## Left out

- The constructors from a file name, the destructor that closes the file, and the `SourceOpenError` they can raise (csvstream.hpp:38-53, 65-68; csvstream.h:98-110, 119-122): operating-system I/O.
- `operator bool` and the `istream` eof/fail bits (`is.clear()`): the stream's status appears only as the flag a tokenizer returns.
- The error messages, the file name they mention, and the exception classes: errors are `CsvError` values carrying the line number and the two sizes.
- The `assert(0); throw state;` default branches: unreachable, since the states are a datatype and every match covers them all.
- The disabled copy constructor and copy assignment, and the unused `<regex>` include.
- Default arguments (`delimiter=','`, `strict=true`, `newline='\n'`): callers of the model pass every parameter.
- The row argument after an exception: the source has already cleared it; `Failed` carries no row.
- `line_no` is a `size_t`; the model counts with an unbounded `nat` and ignores wrap-around after 2^64 lines.
- Characters are Dafny `char`, not C++ `char` bytes; no encoding is involved in the tokenizers.
- The example programs and the test driver (`example1.cpp` to `example4.cpp`, `csvstream_example.cpp`, `csvstream_example3.cpp`, `csvstream_test.cpp`): they only open files and print. The loop of the test driver that stops on an empty row relies on `EndOfInput(map[])` (csvstream_test.cpp:74-75).
- Reader.CsvStream.ExtractPairRow: follows the corrected width check, not the code as written; `Rows.PairRowAsWritten` models the code as written (see Findings).

## Findings

| source | as written | input that shows it | evidently intended | confidence | as-written member | corrected member |
|---|---|---|---|---|---|---|
| csvstream.hpp:289-297 | the strict width check of the pair extractor compares `row.size()`, which line 275 already set to `header.size()`, so it never throws | strict reader, header `a,b`, data line `1`: the row `[(a,1),("","")]` comes back with no exception (lemma `Rows.ShortLineAccepted`) | compare `data.size()` and throw `Mismatch(1, 2, 1)`, as the map extractor does | high; not executed | Rows.PairRowAsWritten | Rows.PairRow |
| csvstream.hpp:299-302 | with the check dead, a strict data line longer than the header makes the loop write `row[i]` and read `header[i]` past their ends | strict reader, header `a`, data line `1,2` (lemma `Rows.LongLineWritesPastEnd`) | the width check rejects the line with `Mismatch(1, 1, 2)` before the loop | high; not executed | Rows.PairRowAsWritten | Rows.PairRow |

=== FILE: char_stream.dfy ===
/** The character source both tokenizers read from: an input stream reduced to
    its text and a read cursor, with `get` and one-character `unget`. */
module Stream {

  class CharStream {
    const text: seq<char>
    var pos: nat

    ghost predicate Valid()
      reads this
    {
      pos <= |text|
    }

    /** The characters not yet read. */
    function Rest(): (s: seq<char>)
      reads this
      requires Valid()
      ensures |s| == |text| - pos
    {
      text[pos..]
    }

    constructor (text: seq<char>)
      ensures Valid() && this.text == text && pos == 0
    {
      this.text := text;
      pos := 0;
    }

    /** `is.get(c)`: false once the text is exhausted, otherwise the next
        character, which is then consumed. */
    method Get() returns (ok: bool, c: char)
      requires Valid()
      modifies this`pos
      ensures Valid()
      ensures ok <==> old(pos) < |text|
      ensures ok ==> c == text[old(pos)] && pos == old(pos) + 1
      ensures !ok ==> pos == old(pos)
    {
      if pos < |text| {
        ok, c := true, text[pos];
        pos := pos + 1;
      } else {
        ok, c := false, '\0';
      }
    }

    /** `is.unget()` after a successful `get`: the last character read becomes
        unread again. */
    method Unget()
      requires Valid() && pos > 0
      modifies this`pos
      ensures Valid() && pos == old(pos) - 1
    {
      pos := pos - 1;
    }
  }
}

=== FILE: csv_types.dfy ===
/** Values shared by both versions of the reader: the outcome of tokenizing
    one logical line, the errors the reader raises, and the shapes of what one
    row extraction yields. */
module CsvTypes {

  /** The outcome of one tokenizer call over the unread part of a stream:
      the fields of the logical line, how many characters it took from the
      stream (after any pushback), and the stream status it reports. */
  datatype Line = Line(fields: seq<string>, consumed: nat, ok: bool)

  /** The same outcome, seen from k characters earlier in the stream. */
  function Shift(r: Line, k: nat): Line
  {
    r.(consumed := r.consumed + k)
  }

  /** `data.back() += c`: append one character to the field being built. */
  function AppendChar(data: seq<string>, c: char): (r: seq<string>)
    requires |data| > 0
    ensures |r| == |data|
    ensures r[..|data| - 1] == data[..|data| - 1]
    ensures r[|data| - 1] == data[|data| - 1] + [c]
  {
    data[..|data| - 1] + [data[|data| - 1] + [c]]
  }

  /** A line of several fields is its first field, the delimiter and the rest. */
  lemma JoinLineCons(f: string, others: seq<string>, delimiter: char, t: seq<char>)
    requires |others| > 0
    ensures JoinLine([f] + others, delimiter) + t == f + ([delimiter] + (JoinLine(others, delimiter) + t))
  {
    assert ([f] + others)[0] == f && ([f] + others)[1..] == others;
  }

  /** Appending one character and then the rest of a string to the open field
      appends the whole string. */
  lemma AppendThenExtend(data: seq<string>, f: string)
    requires |data| > 0 && f != []
    ensures var d := AppendChar(data, f[0]);
      d[..|d| - 1] + [d[|d| - 1] + f[1..]] == data[..|data| - 1] + [data[|data| - 1] + f]
  {
    assert [f[0]] + f[1..] == f;
    assert data[|data| - 1] + [f[0]] + f[1..] == data[|data| - 1] + f;
  }

  /** The exceptions the reader throws. WritePastEnd stands for the undefined
      behaviour of the pair-shaped extractor as written (an element written past
      the end of the row); the corrected extractor never produces it. */
  datatype CsvError =
    | EmptyHeader
    | Mismatch(lineNo: nat, expected: nat, actual: nat)
    | WritePastEnd(index: nat)

  datatype Result<+T> = Success(value: T) | Failure(error: CsvError)

  /** What one `operator>>` call leaves behind: a row, the end of the input
      (with the row the call leaves in place, the stream reporting false), or
      an exception. */
  datatype Extracted<+R> = Row(row: R) | EndOfInput(row: R) | Failed(error: CsvError)

  function FromResult<R>(r: Result<R>): (e: Extracted<R>)
    ensures e.Row? <==> r.Success?
    ensures r.Success? ==> e.row == r.value
    ensures r.Failure? ==> e == Failed(r.error)
  {
    match r
    case Success(v) => Row(v)
    case Failure(err) => Failed(err)
  }

  /** A field no tokenizer treats specially inside quotes. */
  predicate Plain(f: string)
  {
    '"' !in f && '\\' !in f
  }

  /** No field contains a double quote. */
  predicate QuoteFree(data: seq<string>)
  {
    forall i :: 0 <= i < |data| ==> '"' !in data[i]
  }

  function Quote(f: string): string
  {
    ['"'] + f + ['"']
  }

  /** A reference writer: every field wrapped in double quotes, fields joined
      by the delimiter, no line terminator. The library has no writer; this one
      only serves to state what the tokenizers read back. */
  function EncodeLine(fields: seq<string>, delimiter: char): (s: seq<char>)
    requires |fields| > 0
    ensures |s| > 0 && s[0] == '"'
    decreases |fields|
  {
    if |fields| == 1 then Quote(fields[0])
    else Quote(fields[0]) + [delimiter] + EncodeLine(fields[1..], delimiter)
  }

  /** A second reference writer: the fields as they are, joined by the
      delimiter, no quoting and no line terminator. */
  function JoinLine(fields: seq<string>, delimiter: char): (s: seq<char>)
    requires |fields| > 0
    ensures |fields| > 1 ==> delimiter in s
    decreases |fields|
  {
    if |fields| == 1 then fields[0]
    else fields[0] + [delimiter] + JoinLine(fields[1..], delimiter)
  }
}

=== FILE: legacy_reader.dfy ===
/** The `csvstream` class of csvstream.h, built on a borrowed stream: a
    configurable newline character, map rows only, and the width check always
    on. */
module LegacyReader {
  import opened CsvTypes
  import opened Stream
  import opened LegacyTokenizer
  import opened Rows

  class CsvStream {
    const input: CharStream
    const delimiter: char
    const newline: char
    var lineNo: nat
    var header: seq<string>

    /** The reader's invariant once its header has been read. */
    ghost predicate Valid()
      reads this, input
    {
      input.Valid() && |header| > 0
    }

    /** Field initialisation of the stream constructor, before the header is
        read. */
    constructor (input: CharStream, delimiter: char, newline: char)
      ensures this.input == input && this.delimiter == delimiter && this.newline == newline
      ensures lineNo == 0 && header == []
    {
      this.input := input;
      this.delimiter := delimiter;
      this.newline := newline;
      lineNo := 0;
      header := [];
    }

    /** `read_header`: the first line becomes the header; `ok` is false when
        the stream had nothing left to read. */
    method ReadHeader() returns (ok: bool)
      requires input.Valid()
      modifies this`header, input`pos
      ensures Valid()
      ensures var r := ReadLine(old(input.Rest()), delimiter, newline);
        ok == r.ok && header == r.fields && input.pos == old(input.pos) + r.consumed
    {
      ok, header := ReadCsvLine(input, delimiter, newline);
    }

    /** Construction from a stream: it fails with EmptyHeader exactly when the
        stream is already exhausted, and then no reader is returned. */
    static method FromStream(input: CharStream, delimiter: char, newline: char) returns (res: Result<CsvStream>)
      requires input.Valid()
      modifies input`pos
      ensures input.Valid()
      ensures var r := ReadLine(old(input.Rest()), delimiter, newline);
        input.pos == old(input.pos) + r.consumed &&
        (res.Failure? <==> old(input.Rest()) == []) &&
        (res.Failure? ==> res.error == EmptyHeader) &&
        (res.Success? ==>
          fresh(res.value) && res.value.Valid() && res.value.input == input &&
          res.value.delimiter == delimiter && res.value.newline == newline &&
          res.value.lineNo == 0 && res.value.header == r.fields)
    {
      var reader := new CsvStream(input, delimiter, newline);
      var ok := reader.ReadHeader();
      if !ok {
        return Failure(EmptyHeader);
      }
      return Success(reader);
    }

    /** `getheader`: the column names, never an empty list. */
    function GetHeader(): (h: seq<string>)
      reads this, input
      requires Valid()
      ensures |h| > 0 && h == header
    {
      header
    }

    /** `operator>>`: the row is cleared first; at the end of the input it
        stays empty and the line counter is unchanged, otherwise the counter
        advances and a line of the wrong width throws. */
    method ExtractRow() returns (res: Extracted<map<string, string>>)
      requires Valid()
      modifies this`lineNo, input`pos
      ensures Valid()
      ensures var r := ReadLine(old(input.Rest()), delimiter, newline);
        input.pos == old(input.pos) + r.consumed &&
        if !r.ok then res == EndOfInput(map[]) && lineNo == old(lineNo)
        else lineNo == old(lineNo) + 1 && res == FromResult(MapRow(header, r.fields, true, lineNo))
    {
      var ok, data := ReadCsvLine(input, delimiter, newline);
      if !ok {
        return EndOfInput(map[]);
      }
      lineNo := lineNo + 1;
      if |data| != |header| {
        return Failed(Mismatch(lineNo, |header|, |data|));
      }
      var row := CombineMap(header, data);
      return Row(row);
    }
  }
}

=== FILE: legacy_tokenizer.dfy ===
/** The free function `read_csv_line` of csvstream.h: two states, a
    configurable newline character, no escapes. */
module LegacyTokenizer {
  import opened CsvTypes
  import opened Stream

  datatype State = Quoted | Unquoted

  /** The rest of one tokenizer call from state `st`, with fields `data` built
      so far and `extracted` telling whether any character was read yet, over
      the unread characters `s`. The newline ends the line only outside quotes,
      and it is consumed. */
  function Scan(s: seq<char>, st: State, data: seq<string>, extracted: bool,
                delimiter: char, newline: char): (r: Line)
    requires |data| > 0
    ensures |data| <= |r.fields|
    ensures r.consumed <= |s|
    ensures r.ok <==> extracted || s != []
    decreases |s|
  {
    if s == [] then Line(data, 0, extracted)
    else
      var c := s[0];
      match st
      case Unquoted =>
        if c == '"' then Shift(Scan(s[1..], Quoted, data, true, delimiter, newline), 1)
        else if c == delimiter then Shift(Scan(s[1..], Unquoted, data + [""], true, delimiter, newline), 1)
        else if c == newline then Line(data, 1, true)
        else Shift(Scan(s[1..], Unquoted, AppendChar(data, c), true, delimiter, newline), 1)
      case Quoted =>
        if c == '"' then Shift(Scan(s[1..], Unquoted, data, true, delimiter, newline), 1)
        else Shift(Scan(s[1..], Quoted, AppendChar(data, c), true, delimiter, newline), 1)
  }

  /** One call of `read_csv_line` on a stream whose unread text is `s`. */
  function ReadLine(s: seq<char>, delimiter: char, newline: char): (r: Line)
    ensures r.ok <==> s != []
    ensures |r.fields| >= 1
    ensures r.ok ==> 1 <= r.consumed <= |s|
    ensures !r.ok ==> r == Line([""], 0, false)
  {
    Scan(s, Unquoted, [""], false, delimiter, newline)
  }

  /** Reads and tokenizes one line from `input`. */
  method ReadCsvLine(input: CharStream, delimiter: char, newline: char) returns (ok: bool, data: seq<string>)
    requires input.Valid()
    modifies input`pos
    ensures input.Valid()
    ensures var r := ReadLine(old(input.Rest()), delimiter, newline);
      ok == r.ok && data == r.fields && input.pos == old(input.pos) + r.consumed
  {
    ghost var goal := ReadLine(input.Rest(), delimiter, newline);
    data := [""];
    var state := Unquoted;
    var extractedAnything := false;
    var done := false;
    while !done
      invariant input.Valid() && old(input.pos) <= input.pos
      invariant |data| > 0
      invariant extractedAnything <==> old(input.pos) < input.pos
      invariant !done ==> goal == Shift(Scan(input.Rest(), state, data, extractedAnything, delimiter, newline),
                                        input.pos - old(input.pos))
      invariant done ==> goal == Line(data, input.pos - old(input.pos), extractedAnything)
      decreases |input.text| - input.pos + (if done then 0 else 1)
    {
      ghost var rest := input.Rest();
      var got, c := input.Get();
      if !got {
        done := true;
      } else {
        assert rest[0] == c && rest[1..] == input.Rest();
        extractedAnything := true;
        match state {
          case Unquoted =>
            if c == '"' {
              state := Quoted;
            } else if c == delimiter {
              data := data + [""];
            } else if c == newline {
              done := true;
            } else {
              data := AppendChar(data, c);
            }
          case Quoted =>
            if c == '"' {
              state := Unquoted;
            } else {
              data := AppendChar(data, c);
            }
        }
      }
    }
    ok := extractedAnything;
  }
}

=== FILE: legacy_tokenizer_props.dfy ===
/** What csvstream.h's tokenizer promises, proved about `LegacyTokenizer.Scan`. */
module LegacyTokenizerProps {
  import opened CsvTypes
  import opened LegacyTokenizer

  /** Fields already closed by a delimiter are never changed again, and the
      open field is only ever appended to. */
  lemma {:induction false} ScanKeepsClosedFields(s: seq<char>, st: State, data: seq<string>, extracted: bool,
                                                 delimiter: char, newline: char)
    requires |data| > 0
    ensures Scan(s, st, data, extracted, delimiter, newline).fields[..|data| - 1] == data[..|data| - 1]
    ensures data[|data| - 1] <= Scan(s, st, data, extracted, delimiter, newline).fields[|data| - 1]
    decreases |s|
  {
    if s != [] {
      var c := s[0];
      var next := if c == '"' then (if st == Quoted then Unquoted else Quoted) else st;
      if c == '"' {
        ScanKeepsClosedFields(s[1..], next, data, true, delimiter, newline);
      } else if st == Quoted || (c != delimiter && c != newline) {
        var data' := AppendChar(data, c);
        ScanKeepsClosedFields(s[1..], st, data', true, delimiter, newline);
        assert data[|data| - 1] <= data'[|data| - 1];
      } else if c == delimiter {
        ScanKeepsClosedFields(s[1..], st, data + [""], true, delimiter, newline);
        var r := Scan(s[1..], st, data + [""], true, delimiter, newline).fields;
        assert r[..|data| - 1] == r[..|data|][..|data| - 1];
        assert r[..|data|][|data| - 1] == data[|data| - 1];
      }
    }
  }

  /** A reference count of the field separators on a line: delimiters outside
      double quotes, up to the first newline outside quotes. */
  function Separators(s: seq<char>, delimiter: char, newline: char, quoted: bool): nat
    decreases |s|
  {
    if s == [] then 0
    else if s[0] == '"' then Separators(s[1..], delimiter, newline, !quoted)
    else if quoted then Separators(s[1..], delimiter, newline, true)
    else if s[0] == delimiter then 1 + Separators(s[1..], delimiter, newline, false)
    else if s[0] == newline then 0
    else Separators(s[1..], delimiter, newline, false)
  }

  lemma {:induction false} ScanFieldCount(s: seq<char>, st: State, data: seq<string>, extracted: bool,
                                          delimiter: char, newline: char)
    requires |data| > 0
    ensures |Scan(s, st, data, extracted, delimiter, newline).fields|
         == |data| + Separators(s, delimiter, newline, st == Quoted)
    decreases |s|
  {
    if s != [] {
      var c := s[0];
      match st
      case Unquoted =>
        if c == '"' { ScanFieldCount(s[1..], Quoted, data, true, delimiter, newline); }
        else if c == delimiter { ScanFieldCount(s[1..], Unquoted, data + [""], true, delimiter, newline); }
        else if c == newline { }
        else { ScanFieldCount(s[1..], Unquoted, AppendChar(data, c), true, delimiter, newline); }
      case Quoted =>
        if c == '"' { ScanFieldCount(s[1..], Unquoted, data, true, delimiter, newline); }
        else { ScanFieldCount(s[1..], Quoted, AppendChar(data, c), true, delimiter, newline); }
    }
  }

  /** The number of fields is one more than the number of separators read. */
  lemma FieldCount(s: seq<char>, delimiter: char, newline: char)
    ensures |ReadLine(s, delimiter, newline).fields| == 1 + Separators(s, delimiter, newline, false)
  {
    ScanFieldCount(s, Unquoted, [""], false, delimiter, newline);
  }

  lemma {:induction false} ScanNoQuotes(s: seq<char>, st: State, data: seq<string>, extracted: bool,
                                        delimiter: char, newline: char)
    requires |data| > 0 && QuoteFree(data)
    ensures QuoteFree(Scan(s, st, data, extracted, delimiter, newline).fields)
    decreases |s|
  {
    if s != [] {
      var c := s[0];
      if c == '"' {
        if st == Unquoted {
          ScanNoQuotes(s[1..], Quoted, data, true, delimiter, newline);
        } else {
          ScanNoQuotes(s[1..], Unquoted, data, true, delimiter, newline);
        }
      } else if st == Quoted {
        ScanNoQuotes(s[1..], Quoted, AppendChar(data, c), true, delimiter, newline);
      } else if c == delimiter {
        ScanNoQuotes(s[1..], Unquoted, data + [""], true, delimiter, newline);
      } else if c != newline {
        ScanNoQuotes(s[1..], Unquoted, AppendChar(data, c), true, delimiter, newline);
      }
    }
  }

  /** Without escapes, a double quote is never part of a field, whatever the
      input. */
  lemma QuotesNeverKept(s: seq<char>, delimiter: char, newline: char)
    ensures QuoteFree(ReadLine(s, delimiter, newline).fields)
  {
    ScanNoQuotes(s, Unquoted, [""], false, delimiter, newline);
  }

  lemma {:induction false} ScanStopsAtNewline(s: seq<char>, st: State, data: seq<string>, extracted: bool,
                                              delimiter: char, newline: char)
    requires |data| > 0
    ensures var r := Scan(s, st, data, extracted, delimiter, newline);
      r.consumed < |s| ==> 0 < r.consumed && s[r.consumed - 1] == newline
    decreases |s|
  {
    if s != [] {
      var c := s[0];
      match st
      case Unquoted =>
        if c == '"' { ScanStopsAtNewline(s[1..], Quoted, data, true, delimiter, newline); }
        else if c == delimiter { ScanStopsAtNewline(s[1..], Unquoted, data + [""], true, delimiter, newline); }
        else if c == newline { }
        else { ScanStopsAtNewline(s[1..], Unquoted, AppendChar(data, c), true, delimiter, newline); }
      case Quoted =>
        if c == '"' { ScanStopsAtNewline(s[1..], Unquoted, data, true, delimiter, newline); }
        else { ScanStopsAtNewline(s[1..], Quoted, AppendChar(data, c), true, delimiter, newline); }
    }
  }

  /** Only the configured newline ends a line, and it is consumed with it: a
      line that stops before the end of the text stops right after a newline. */
  lemma StopsAtNewline(s: seq<char>, delimiter: char, newline: char)
    ensures var r := ReadLine(s, delimiter, newline);
      r.consumed < |s| ==> 0 < r.consumed && s[r.consumed - 1] == newline
  {
    ScanStopsAtNewline(s, Unquoted, [""], false, delimiter, newline);
  }

  /** A reference for where a line ends: the index of the first newline read
      outside double quotes (and not as the delimiter), or `|s|` when there is
      none. */
  function NewlineIndex(s: seq<char>, delimiter: char, newline: char, quoted: bool): (k: nat)
    ensures k <= |s|
    ensures k < |s| ==> s[k] == newline
    decreases |s|
  {
    if s == [] then 0
    else if s[0] == '"' then 1 + NewlineIndex(s[1..], delimiter, newline, !quoted)
    else if quoted || s[0] == delimiter || s[0] != newline then 1 + NewlineIndex(s[1..], delimiter, newline, quoted)
    else 0
  }

  lemma {:induction false} ScanStopPoint(s: seq<char>, st: State, data: seq<string>, extracted: bool,
                                         delimiter: char, newline: char)
    requires |data| > 0
    ensures var k := NewlineIndex(s, delimiter, newline, st == Quoted);
      Scan(s, st, data, extracted, delimiter, newline).consumed == if k == |s| then k else k + 1
    decreases |s|
  {
    if s != [] {
      var c := s[0];
      match st
      case Unquoted =>
        if c == '"' { ScanStopPoint(s[1..], Quoted, data, true, delimiter, newline); }
        else if c == delimiter { ScanStopPoint(s[1..], Unquoted, data + [""], true, delimiter, newline); }
        else if c == newline { }
        else { ScanStopPoint(s[1..], Unquoted, AppendChar(data, c), true, delimiter, newline); }
      case Quoted =>
        if c == '"' { ScanStopPoint(s[1..], Unquoted, data, true, delimiter, newline); }
        else { ScanStopPoint(s[1..], Quoted, AppendChar(data, c), true, delimiter, newline); }
    }
  }

  /** A call consumes exactly the line up to and including its newline, and
      nothing after it. */
  lemma ExactStop(s: seq<char>, delimiter: char, newline: char)
    ensures var k := NewlineIndex(s, delimiter, newline, false);
      ReadLine(s, delimiter, newline).consumed == if k == |s| then k else k + 1
  {
    ScanStopPoint(s, Unquoted, [""], false, delimiter, newline);
  }

  /** Inside quotes every character but `"` is content, the delimiter and the
      newline included. */
  lemma {:induction false} QuotedContent(f: string, t: seq<char>, data: seq<string>,
                                         delimiter: char, newline: char)
    requires |data| > 0 && '"' !in f
    ensures Scan(f + ['"'] + t, Quoted, data, true, delimiter, newline)
         == Shift(Scan(t, Unquoted, data[..|data| - 1] + [data[|data| - 1] + f], true, delimiter, newline), |f| + 1)
    decreases |f|
  {
    var s := f + ['"'] + t;
    if f == [] {
      assert s[0] == '"' && s[1..] == t;
      assert data[|data| - 1] + f == data[|data| - 1];
      assert data[..|data| - 1] + [data[|data| - 1]] == data;
    } else {
      assert s[0] == f[0] && s[1..] == f[1..] + ['"'] + t;
      assert f[0] in f;
      var data' := AppendChar(data, f[0]);
      assert '"' !in f[1..] by { assert forall c :: c in f[1..] ==> c in f; }
      QuotedContent(f[1..], t, data', delimiter, newline);
      assert data'[..|data'| - 1] + [data'[|data'| - 1] + f[1..]]
          == data[..|data| - 1] + [data[|data| - 1] + f] by {
        assert data'[..|data'| - 1] == data[..|data| - 1];
        assert data'[|data'| - 1] + f[1..] == data[|data| - 1] + [f[0]] + f[1..];
        assert [f[0]] + f[1..] == f;
        assert data[|data| - 1] + [f[0]] + f[1..] == data[|data| - 1] + f;
      }
    }
  }

  /** One quoted field, from its opening quote to its closing quote. */
  lemma QuotedField(f: string, t: seq<char>, data: seq<string>, extracted: bool,
                    delimiter: char, newline: char)
    requires '"' !in f
    ensures Scan(Quote(f) + t, Unquoted, data + [""], extracted, delimiter, newline)
         == Shift(Scan(t, Unquoted, data + [f], true, delimiter, newline), |f| + 2)
  {
    var s := Quote(f) + t;
    var d := data + [""];
    assert s[0] == '"' && s[1..] == f + ['"'] + t;
    assert Scan(s, Unquoted, d, extracted, delimiter, newline)
        == Shift(Scan(s[1..], Quoted, d, true, delimiter, newline), 1);
    QuotedContent(f, t, d, delimiter, newline);
    assert d[..|d| - 1] == data && d[|d| - 1] + f == f;
  }

  lemma Separator(t: seq<char>, data: seq<string>, delimiter: char, newline: char)
    requires |data| > 0 && delimiter != '"'
    ensures Scan([delimiter] + t, Unquoted, data, true, delimiter, newline)
         == Shift(Scan(t, Unquoted, data + [""], true, delimiter, newline), 1)
  {
    assert ([delimiter] + t)[1..] == t;
  }

  lemma QuoteFreeTail(fields: seq<string>)
    requires |fields| > 0 && QuoteFree(fields)
    ensures QuoteFree(fields[1..])
  {
    forall i | 0 <= i < |fields| - 1 ensures '"' !in fields[1..][i] {
      assert fields[1..][i] == fields[i + 1];
    }
  }

  /** A quoted field and the delimiter after it close that field and open a
      new empty one. */
  lemma QuotedThenSeparator(f: string, u: seq<char>, data: seq<string>, extracted: bool,
                            delimiter: char, newline: char)
    requires '"' !in f && delimiter != '"'
    ensures Scan(Quote(f) + ([delimiter] + u), Unquoted, data + [""], extracted, delimiter, newline)
         == Shift(Scan(u, Unquoted, data + [f] + [""], true, delimiter, newline), |f| + 3)
  {
    QuotedField(f, [delimiter] + u, data, extracted, delimiter, newline);
    Separator(u, data + [f], delimiter, newline);
  }

  /** A quoted field followed by a delimiter, in front of the fields after it. */
  lemma LeadingField(f: string, others: seq<string>, t: seq<char>, data: seq<string>, extracted: bool,
                     delimiter: char, newline: char)
    requires '"' !in f && |others| > 0 && delimiter != '"'
    requires Scan(EncodeLine(others, delimiter) + t, Unquoted, data + [f] + [""], true, delimiter, newline)
          == Shift(Scan(t, Unquoted, data + [f] + others, true, delimiter, newline), |EncodeLine(others, delimiter)|)
    ensures Scan(EncodeLine([f] + others, delimiter) + t, Unquoted, data + [""], extracted, delimiter, newline)
         == Shift(Scan(t, Unquoted, data + ([f] + others), true, delimiter, newline),
                  |EncodeLine([f] + others, delimiter)|)
  {
    var e' := EncodeLine(others, delimiter);
    assert ([f] + others)[0] == f && ([f] + others)[1..] == others;
    assert EncodeLine([f] + others, delimiter) + t == Quote(f) + ([delimiter] + (e' + t));
    QuotedThenSeparator(f, e' + t, data, extracted, delimiter, newline);
    assert data + [f] + others == data + ([f] + others);
  }

  lemma {:induction false} EncodedFields(fields: seq<string>, t: seq<char>, data: seq<string>, extracted: bool,
                                         delimiter: char, newline: char)
    requires |fields| > 0 && QuoteFree(fields) && delimiter != '"'
    ensures Scan(EncodeLine(fields, delimiter) + t, Unquoted, data + [""], extracted, delimiter, newline)
         == Shift(Scan(t, Unquoted, data + fields, true, delimiter, newline), |EncodeLine(fields, delimiter)|)
    decreases |fields|
  {
    var f := fields[0];
    assert '"' !in f;
    if |fields| == 1 {
      QuotedField(f, t, data, extracted, delimiter, newline);
      assert data + [f] == data + fields;
    } else {
      QuoteFreeTail(fields);
      EncodedFields(fields[1..], t, data + [f], true, delimiter, newline);
      LeadingField(f, fields[1..], t, data, extracted, delimiter, newline);
      assert [f] + fields[1..] == fields;
    }
  }

  /** A tokenizer call on a line written by the reference writer reads its
      fields and goes on with whatever follows, in state Unquoted. */
  lemma EncodedLine(fields: seq<string>, u: seq<char>, delimiter: char, newline: char)
    requires |fields| > 0 && QuoteFree(fields) && delimiter != '"'
    ensures ReadLine(EncodeLine(fields, delimiter) + u, delimiter, newline)
         == Shift(Scan(u, Unquoted, fields, true, delimiter, newline), |EncodeLine(fields, delimiter)|)
  {
    EncodedFields(fields, u, [], false, delimiter, newline);
    assert [] + [""] == [""] && [] + fields == fields;
  }

  /** Reading back what the reference writer produced: a line of quoted fields
      without double quotes, ended by the newline character or by the end of
      the text, yields exactly those fields and consumes exactly that line,
      whatever follows it. */
  lemma RoundTrip(fields: seq<string>, delimiter: char, newline: char, terminated: bool, rest: seq<char>)
    requires |fields| > 0 && QuoteFree(fields)
    requires delimiter != '"' && newline != '"' && delimiter != newline
    requires !terminated ==> rest == []
    ensures var term := if terminated then [newline] else [];
      ReadLine(EncodeLine(fields, delimiter) + term + rest, delimiter, newline)
         == Line(fields, |EncodeLine(fields, delimiter)| + |term|, true)
  {
    var term := if terminated then [newline] else [];
    var e := EncodeLine(fields, delimiter);
    assert e + term + rest == e + (term + rest);
    EncodedLine(fields, term + rest, delimiter, newline);
    if terminated {
      assert (term + rest)[0] == newline;
    } else {
      assert term + rest == [];
    }
  }

  /** An unquoted `\r` is content; the `\n` after it ends the line. */
  lemma CarriageReturnThenNewline(rest: seq<char>, data: seq<string>, delimiter: char)
    requires |data| > 0 && delimiter != '\r' && delimiter != '\n'
    ensures Scan("\r\n" + rest, Unquoted, data, true, delimiter, '\n') == Line(AppendChar(data, '\r'), 2, true)
  {
    var t := "\r\n" + rest;
    assert t[0] == '\r' && t[1..] == "\n" + rest;
    assert t[1..][0] == '\n';
  }

  /** With the default newline `\n`, a Windows line ending is not recognised:
      the `\r` before the `\n` stays at the end of the last field. */
  lemma CarriageReturnKept(fields: seq<string>, delimiter: char, rest: seq<char>)
    requires |fields| > 0 && QuoteFree(fields)
    requires delimiter != '"' && delimiter != '\n' && delimiter != '\r'
    ensures ReadLine(EncodeLine(fields, delimiter) + "\r\n" + rest, delimiter, '\n')
         == Line(fields[..|fields| - 1] + [fields[|fields| - 1] + "\r"], |EncodeLine(fields, delimiter)| + 2, true)
  {
    var e := EncodeLine(fields, delimiter);
    assert e + "\r\n" + rest == e + ("\r\n" + rest);
    EncodedLine(fields, "\r\n" + rest, delimiter, '\n');
    CarriageReturnThenNewline(rest, fields, delimiter);
  }

  /** A field the tokenizer reads verbatim outside quotes: no double quote, no
      delimiter and no newline. */
  predicate Bare(f: string, delimiter: char, newline: char)
  {
    '"' !in f && delimiter !in f && newline !in f
  }

  /** Once the first character is read, whether anything was extracted before
      no longer matters. */
  lemma ExtractedSettled(s: seq<char>, st: State, data: seq<string>, delimiter: char, newline: char)
    requires |data| > 0 && s != []
    ensures Scan(s, st, data, false, delimiter, newline) == Scan(s, st, data, true, delimiter, newline)
  {
  }

  /** Outside quotes, every character of a bare field is appended as it is. */
  lemma {:induction false} BareContent(f: string, t: seq<char>, data: seq<string>, delimiter: char, newline: char)
    requires |data| > 0 && Bare(f, delimiter, newline)
    ensures Scan(f + t, Unquoted, data, true, delimiter, newline)
         == Shift(Scan(t, Unquoted, data[..|data| - 1] + [data[|data| - 1] + f], true, delimiter, newline), |f|)
    decreases |f|
  {
    var s := f + t;
    if f == [] {
      assert s == t;
      assert data[|data| - 1] + f == data[|data| - 1];
      assert data[..|data| - 1] + [data[|data| - 1]] == data;
    } else {
      assert s[0] == f[0] && s[1..] == f[1..] + t;
      assert f[0] in f;
      var data' := AppendChar(data, f[0]);
      assert Scan(s, Unquoted, data, true, delimiter, newline)
          == Shift(Scan(s[1..], Unquoted, data', true, delimiter, newline), 1);
      assert Bare(f[1..], delimiter, newline) by { assert forall c :: c in f[1..] ==> c in f; }
      BareContent(f[1..], t, data', delimiter, newline);
      AppendThenExtend(data, f);
    }
  }

  /** A bare field and the delimiter after it close that field and open a new
      empty one. */
  lemma BareThenSeparator(f: string, u: seq<char>, data: seq<string>, delimiter: char, newline: char)
    requires Bare(f, delimiter, newline) && delimiter != '"'
    ensures Scan(f + ([delimiter] + u), Unquoted, data + [""], true, delimiter, newline)
         == Shift(Scan(u, Unquoted, data + [f] + [""], true, delimiter, newline), |f| + 1)
  {
    BareContent(f, [delimiter] + u, data + [""], delimiter, newline);
    assert (data + [""])[..|data|] == data && (data + [""])[|data|] + f == f;
    Separator(u, data + [f], delimiter, newline);
  }

  /** A bare field followed by a delimiter, in front of the fields after it. */
  lemma BareLeadingField(f: string, others: seq<string>, t: seq<char>, data: seq<string>,
                         delimiter: char, newline: char)
    requires Bare(f, delimiter, newline) && |others| > 0 && delimiter != '"'
    requires Scan(JoinLine(others, delimiter) + t, Unquoted, data + [f] + [""], true, delimiter, newline)
          == Shift(Scan(t, Unquoted, data + [f] + others, true, delimiter, newline), |JoinLine(others, delimiter)|)
    ensures Scan(JoinLine([f] + others, delimiter) + t, Unquoted, data + [""], true, delimiter, newline)
         == Shift(Scan(t, Unquoted, data + ([f] + others), true, delimiter, newline),
                  |JoinLine([f] + others, delimiter)|)
  {
    var j := JoinLine(others, delimiter);
    JoinLineCons(f, others, delimiter, t);
    BareThenSeparator(f, j + t, data, delimiter, newline);
    assert data + [f] + others == data + ([f] + others);
  }

  /** Bare fields joined by the delimiter yield exactly those fields, whatever
      text follows. */
  lemma {:induction false} JoinedFields(fields: seq<string>, t: seq<char>, data: seq<string>,
                                        delimiter: char, newline: char)
    requires |fields| > 0 && (forall i :: 0 <= i < |fields| ==> Bare(fields[i], delimiter, newline))
    requires delimiter != '"'
    ensures Scan(JoinLine(fields, delimiter) + t, Unquoted, data + [""], true, delimiter, newline)
         == Shift(Scan(t, Unquoted, data + fields, true, delimiter, newline), |JoinLine(fields, delimiter)|)
    decreases |fields|
  {
    var f := fields[0];
    assert Bare(f, delimiter, newline);
    if |fields| == 1 {
      BareContent(f, t, data + [""], delimiter, newline);
      assert (data + [""])[..|data|] == data && (data + [""])[|data|] + f == f;
      assert data + [f] == data + fields;
    } else {
      assert forall i :: 0 <= i < |fields| - 1 ==> Bare(fields[1..][i], delimiter, newline);
      JoinedFields(fields[1..], t, data + [f], delimiter, newline);
      BareLeadingField(f, fields[1..], t, data, delimiter, newline);
      assert [f] + fields[1..] == fields;
    }
  }

  /** Reading back a line of bare fields: joined by the delimiter and ended by
      the newline or by the end of the text, the line yields exactly those
      fields and consumes exactly that line, whatever follows it. An empty text
      is the end of the input, not a line of one empty field. */
  lemma BareRoundTrip(fields: seq<string>, delimiter: char, newline: char, terminated: bool, rest: seq<char>)
    requires |fields| > 0 && (forall i :: 0 <= i < |fields| ==> Bare(fields[i], delimiter, newline))
    requires delimiter != '"' && newline != '"' && delimiter != newline
    requires !terminated ==> rest == [] && (|fields| > 1 || fields[0] != "")
    ensures var term := if terminated then [newline] else [];
      ReadLine(JoinLine(fields, delimiter) + term + rest, delimiter, newline)
         == Line(fields, |JoinLine(fields, delimiter)| + |term|, true)
  {
    var term := if terminated then [newline] else [];
    var j := JoinLine(fields, delimiter);
    var s := j + (term + rest);
    assert j + term + rest == s;
    assert s != [] by {
      if terminated { assert s[|j|] == newline; }
      else if |fields| == 1 { assert j == fields[0]; }
      else { assert delimiter in j; }
    }
    ExtractedSettled(s, Unquoted, [""], delimiter, newline);
    JoinedFields(fields, term + rest, [], delimiter, newline);
    assert [] + [""] == [""] && [] + fields == fields;
    if terminated {
      assert (term + rest)[0] == newline;
    } else {
      assert term + rest == [];
    }
  }

  /** Unquoted fields are read as they are, and a line of delimiters alone
      yields empty fields. */
  lemma BareLines()
    ensures ReadLine("a,b,c\n", ',', '\n') == Line(["a", "b", "c"], 6, true)
    ensures ReadLine(",,", ',', '\n') == Line(["", "", ""], 2, true)
  {
    BareRoundTrip(["a", "b", "c"], ',', '\n', true, []);
    assert JoinLine(["a", "b", "c"], ',') + ['\n'] + [] == "a,b,c\n";
    BareRoundTrip(["", "", ""], ',', '\n', false, []);
    assert JoinLine(["", "", ""], ',') + [] + [] == ",,";
  }
}

=== FILE: reader.dfy ===
/** The `csvstream` class of csvstream.hpp, built on a borrowed stream:
    the header read at construction, a line counter, and the two row
    extractors. */
module Reader {
  import opened CsvTypes
  import opened Stream
  import opened Tokenizer
  import opened Rows

  class CsvStream {
    const input: CharStream
    const delimiter: char
    const strict: bool
    var lineNo: nat
    var header: seq<string>

    /** The reader's invariant once its header has been read. */
    ghost predicate Valid()
      reads this, input
    {
      input.Valid() && |header| > 0
    }

    /** Field initialisation of the stream constructor, before the header is
        read. */
    constructor (input: CharStream, delimiter: char, strict: bool)
      ensures this.input == input && this.delimiter == delimiter && this.strict == strict
      ensures lineNo == 0 && header == []
    {
      this.input := input;
      this.delimiter := delimiter;
      this.strict := strict;
      lineNo := 0;
      header := [];
    }

    /** `read_header`: the first line becomes the header; `ok` is false when
        the stream had nothing left to read. */
    method ReadHeader() returns (ok: bool)
      requires input.Valid()
      modifies this`header, input`pos
      ensures Valid()
      ensures var r := ReadLine(old(input.Rest()), delimiter);
        ok == r.ok && header == r.fields && input.pos == old(input.pos) + r.consumed
    {
      ok, header := ReadCsvLine(input, delimiter);
    }

    /** Construction from a stream: it fails with EmptyHeader exactly when the
        stream is already exhausted, and then no reader is returned. */
    static method FromStream(input: CharStream, delimiter: char, strict: bool) returns (res: Result<CsvStream>)
      requires input.Valid()
      modifies input`pos
      ensures input.Valid()
      ensures var r := ReadLine(old(input.Rest()), delimiter);
        input.pos == old(input.pos) + r.consumed &&
        (res.Failure? <==> old(input.Rest()) == []) &&
        (res.Failure? ==> res.error == EmptyHeader) &&
        (res.Success? ==>
          fresh(res.value) && res.value.Valid() && res.value.input == input &&
          res.value.delimiter == delimiter && res.value.strict == strict &&
          res.value.lineNo == 0 && res.value.header == r.fields)
    {
      var reader := new CsvStream(input, delimiter, strict);
      var ok := reader.ReadHeader();
      if !ok {
        return Failure(EmptyHeader);
      }
      return Success(reader);
    }

    /** `getheader`: the column names, never an empty list. */
    function GetHeader(): (h: seq<string>)
      reads this, input
      requires Valid()
      ensures |h| > 0 && h == header
    {
      header
    }

    /** `operator>>` into a map. At the end of the input the row is empty and
        the line counter is unchanged; otherwise the counter advances first and
        the line is reconciled with the header. */
    method ExtractMapRow() returns (res: Extracted<map<string, string>>)
      requires Valid()
      modifies this`lineNo, input`pos
      ensures Valid()
      ensures var r := ReadLine(old(input.Rest()), delimiter);
        input.pos == old(input.pos) + r.consumed &&
        if !r.ok then res == EndOfInput(map[]) && lineNo == old(lineNo)
        else lineNo == old(lineNo) + 1 && res == FromResult(MapRow(header, r.fields, strict, lineNo))
    {
      var ok, data := ReadCsvLine(input, delimiter);
      if !ok {
        return EndOfInput(map[]);
      }
      lineNo := lineNo + 1;
      if !strict {
        data := Resize(data, |header|);
      }
      if |data| != |header| {
        return Failed(Mismatch(lineNo, |header|, |data|));
      }
      var row := CombineMap(header, data);
      return Row(row);
    }

    /** `operator>>` into a vector of pairs, with the width check comparing the
        data (see PairRowAsWritten for the code as it stands). The row is sized
        to the header before anything is read, so even at the end of the input
        it holds one empty pair per column. */
    method ExtractPairRow() returns (res: Extracted<seq<(string, string)>>)
      requires Valid()
      modifies this`lineNo, input`pos
      ensures Valid()
      ensures var r := ReadLine(old(input.Rest()), delimiter);
        input.pos == old(input.pos) + r.consumed &&
        if !r.ok then res == EndOfInput(Blank(|header|)) && lineNo == old(lineNo)
        else lineNo == old(lineNo) + 1 && res == FromResult(PairRow(header, r.fields, strict, lineNo))
    {
      ghost var line := ReadLine(input.Rest(), delimiter);
      var row := Blank(|header|);
      var ok, data := ReadCsvLine(input, delimiter);
      if !ok {
        return EndOfInput(row);
      }
      lineNo := lineNo + 1;
      if !strict {
        data := Resize(data, |header|);
      }
      if |data| != |header| {
        return Failed(Mismatch(lineNo, |header|, |data|));
      }
      row := CombinePairs(row, header, data);
      ghost var expected := PairRow(header, line.fields, strict, lineNo);
      assert forall i :: 0 <= i < |row| ==> row[i] == expected.value[i];
      assert row == expected.value;
      return Row(row);
    }
  }
}

=== FILE: rows.dfy ===
/** Reconciling a tokenized line with the header and building the two row
    shapes: the associative row (`std::map`) and the ordered row (a vector of
    (column, value) pairs). */
module Rows {
  import opened CsvTypes

  /** `data.resize(width)`: drop trailing fields, or pad with empty strings. */
  function Resize(data: seq<string>, width: nat): (r: seq<string>)
    ensures |r| == width
    ensures forall i :: 0 <= i < width ==> r[i] == if i < |data| then data[i] else ""
  {
    if |data| >= width then data[..width] else data + seq(width - |data|, _ => "")
  }

  /** The width check of both extractors: `actual` is the size the code
      compares with the header's. */
  function CheckWidth(header: seq<string>, actual: nat, lineNo: nat): (r: Result<()>)
    ensures r.Failure? <==> actual != |header|
    ensures r.Failure? ==> r.error == Mismatch(lineNo, |header|, actual)
  {
    if actual != |header| then Failure(Mismatch(lineNo, |header|, actual)) else Success(())
  }

  /** The width policy applied to a data line whose line number is `lineNo`:
      lenient mode coerces the line to the header's width, strict mode rejects a
      line of any other width. */
  function Reconcile(header: seq<string>, data: seq<string>, strict: bool, lineNo: nat): (r: Result<seq<string>>)
    ensures r.Success? ==> |r.value| == |header|
    ensures r.Failure? <==> strict && |data| != |header|
    ensures r.Failure? ==> r.error == Mismatch(lineNo, |header|, |data|)
    ensures strict && r.Success? ==> r.value == data
    ensures !strict ==> forall i :: 0 <= i < |header| ==>
              r.value[i] == if i < |data| then data[i] else ""
  {
    var d := if strict then data else Resize(data, |header|);
    match CheckWidth(header, |d|, lineNo)
    case Failure(e) => Failure(e)
    case Success(_) => Success(d)
  }

  /** The map a loop `row[keys[i]] = values[i]` builds, for i in index order. */
  function ZipMap(keys: seq<string>, values: seq<string>): map<string, string>
    requires |values| <= |keys|
    decreases |values|
  {
    if values == [] then map[]
    else ZipMap(keys, values[..|values| - 1])[keys[|values| - 1] := values[|values| - 1]]
  }

  /** The map has one entry per distinct column name. */
  lemma {:induction false} ZipMapKeys(keys: seq<string>, values: seq<string>)
    requires |values| <= |keys|
    ensures ZipMap(keys, values).Keys == set i | 0 <= i < |values| :: keys[i]
    decreases |values|
  {
    if values != [] {
      var n := |values| - 1;
      ZipMapKeys(keys, values[..n]);
      assert (set i | 0 <= i < |values| :: keys[i]) == (set i | 0 <= i < n :: keys[i]) + {keys[n]};
    }
  }

  /** A column name is mapped to the value at its last position: with
      duplicate names, the later value overwrites the earlier one. */
  lemma {:induction false} ZipMapLastWins(keys: seq<string>, values: seq<string>, i: nat)
    requires |values| <= |keys| && i < |values|
    requires forall j :: i < j < |values| ==> keys[j] != keys[i]
    ensures keys[i] in ZipMap(keys, values) && ZipMap(keys, values)[keys[i]] == values[i]
    decreases |values|
  {
    var n := |values| - 1;
    if i < n {
      ZipMapLastWins(keys, values[..n], i);
    }
  }

  /** The map loop of `extract_row`. */
  method CombineMap(header: seq<string>, data: seq<string>) returns (row: map<string, string>)
    requires |data| <= |header|
    ensures row == ZipMap(header, data)
  {
    row := map[];
    for i := 0 to |data|
      invariant row == ZipMap(header, data[..i])
    {
      assert data[..i + 1][..i] == data[..i];
      row := row[header[i] := data[i]];
    }
    assert data[..|data|] == data;
  }

  /** The ordered row `extract_row` starts from: one empty pair per column. */
  function Blank(width: nat): (row: seq<(string, string)>)
    ensures |row| == width && forall i :: 0 <= i < width ==> row[i] == ("", "")
  {
    seq(width, _ => ("", ""))
  }

  /** The pair loop of `extract_row`: position i of `row` becomes
      (header[i], data[i]) for every datum; the other positions are kept. */
  method CombinePairs(row: seq<(string, string)>, header: seq<string>, data: seq<string>)
    returns (row': seq<(string, string)>)
    requires |data| <= |row| && |data| <= |header|
    ensures |row'| == |row|
    ensures forall i :: 0 <= i < |data| ==> row'[i] == (header[i], data[i])
    ensures forall i :: |data| <= i < |row| ==> row'[i] == row[i]
  {
    row' := row;
    for i := 0 to |data|
      invariant |row'| == |row|
      invariant forall j :: 0 <= j < i ==> row'[j] == (header[j], data[j])
      invariant forall j :: i <= j < |row| ==> row'[j] == row[j]
    {
      row' := row'[i := (header[i], data[i])];
    }
  }

  /** The associative row one data line yields. */
  function MapRow(header: seq<string>, data: seq<string>, strict: bool, lineNo: nat): (r: Result<map<string, string>>)
    ensures r.Failure? <==> strict && |data| != |header|
    ensures r.Failure? ==> r.error == Mismatch(lineNo, |header|, |data|)
  {
    match Reconcile(header, data, strict, lineNo)
    case Failure(e) => Failure(e)
    case Success(d) => Success(ZipMap(header, d))
  }

  /** The keys of an associative row are exactly the header's column names,
      and each is mapped to the (reconciled) datum at the column's last
      position. */
  lemma MapRowContents(header: seq<string>, data: seq<string>, strict: bool, lineNo: nat, i: nat)
    requires MapRow(header, data, strict, lineNo).Success?
    requires i < |header| && forall j :: i < j < |header| ==> header[j] != header[i]
    ensures var row := MapRow(header, data, strict, lineNo).value;
      row.Keys == (set k | 0 <= k < |header| :: header[k]) &&
      row[header[i]] == if i < |data| then data[i] else ""
  {
    var d := Reconcile(header, data, strict, lineNo).value;
    ZipMapKeys(header, d);
    ZipMapLastWins(header, d, i);
  }

  /** The ordered row one data line yields: exactly one pair per column, in
      header order, duplicates kept. */
  function PairRow(header: seq<string>, data: seq<string>, strict: bool, lineNo: nat): (r: Result<seq<(string, string)>>)
    ensures r.Failure? <==> strict && |data| != |header|
    ensures r.Failure? ==> r.error == Mismatch(lineNo, |header|, |data|)
    ensures r.Success? ==> |r.value| == |header| && forall i :: 0 <= i < |header| ==>
              r.value[i] == (header[i], if i < |data| then data[i] else "")
  {
    match Reconcile(header, data, strict, lineNo)
    case Failure(e) => Failure(e)
    case Success(d) => Success(seq(|header|, i requires 0 <= i < |header| => (header[i], d[i])))
  }

  /** On a line already as wide as the header, both policies give the same
      row, in both shapes. */
  lemma PoliciesAgree(header: seq<string>, data: seq<string>, lineNo: nat)
    requires |data| == |header|
    ensures Reconcile(header, data, true, lineNo) == Reconcile(header, data, false, lineNo)
    ensures MapRow(header, data, true, lineNo) == MapRow(header, data, false, lineNo)
    ensures PairRow(header, data, true, lineNo) == PairRow(header, data, false, lineNo)
  {
    assert Resize(data, |header|) == data;
  }

  /** The ordered-row extraction as the code has it: the width check compares
      the row, already resized to the header's width, instead of the data, and
      the fill loop runs over all the data. A write beyond the row's end is
      undefined behaviour; it is reported as WritePastEnd. */
  function PairRowAsWritten(header: seq<string>, data: seq<string>, strict: bool, lineNo: nat)
    : (r: Result<seq<(string, string)>>)
    ensures r.Failure? <==> strict && |data| > |header|
    ensures r.Failure? ==> r.error == WritePastEnd(|header|)
    ensures r.Success? ==> |r.value| == |header| && forall i :: 0 <= i < |header| ==>
              r.value[i] == if i < |data| then (header[i], data[i])
                            else if strict then ("", "") else (header[i], "")
  {
    var row := Blank(|header|);
    var d := if strict then data else Resize(data, |header|);
    match CheckWidth(header, |row|, lineNo)
    case Failure(e) => Failure(e)
    case Success(_) =>
      if |d| > |row| then Failure(WritePastEnd(|row|))
      else Success(seq(|row|, i requires 0 <= i < |row| => if i < |d| then (header[i], d[i]) else row[i]))
  }

  /** The width check of the ordered-row extraction never fires. */
  lemma PairCheckNeverFires(header: seq<string>, data: seq<string>, strict: bool, lineNo: nat)
    ensures !PairRowAsWritten(header, data, strict, lineNo).Failure?
         || !PairRowAsWritten(header, data, strict, lineNo).error.Mismatch?
  {
  }

  /** In strict mode, a line shorter than the header is accepted with empty
      trailing pairs, where the associative extraction (and the corrected
      ordered one) rejects it. */
  lemma ShortLineAccepted()
    ensures PairRowAsWritten(["a", "b"], ["1"], true, 1) == Success([("a", "1"), ("", "")])
    ensures MapRow(["a", "b"], ["1"], true, 1) == Failure(Mismatch(1, 2, 1))
    ensures PairRow(["a", "b"], ["1"], true, 1) == Failure(Mismatch(1, 2, 1))
  {
    var r := PairRowAsWritten(["a", "b"], ["1"], true, 1);
    assert r.Success? && |r.value| == 2;
    assert r.value[0] == ("a", "1") && r.value[1] == ("", "");
    assert r.value == [("a", "1"), ("", "")];
  }

  /** In strict mode, a line longer than the header makes the fill loop write
      past the end of the row. */
  lemma LongLineWritesPastEnd()
    ensures PairRowAsWritten(["a"], ["1", "2"], true, 1) == Failure(WritePastEnd(1))
    ensures PairRow(["a"], ["1", "2"], true, 1) == Failure(Mismatch(1, 1, 2))
  {
  }
}

=== FILE: tokenizer.dfy ===
/** `csvstream::read_csv_line` of csvstream.hpp: the six-state tokenizer with
    backslash escapes, quoted fields and `\n`, `\r`, `\r\n` line endings. */
module Tokenizer {
  import opened CsvTypes
  import opened Stream

  datatype State = Begin | Quoted | QuotedEscaped | Unquoted | UnquotedEscaped | End

  predicate IsTerminator(c: char)
  {
    c == '\n' || c == '\r'
  }

  /** The transition on one character read in any state but End. Begin falls
      through into Unquoted, exactly as the first character of a line does. */
  function Step(st: State, data: seq<string>, c: char, delimiter: char): (State, seq<string>)
    requires |data| > 0 && st != End
  {
    match st
    case Begin | Unquoted =>
      if c == '"' then (Quoted, data)
      else if c == '\\' then (UnquotedEscaped, AppendChar(data, c))
      else if c == delimiter then (Unquoted, data + [""])
      else if IsTerminator(c) then (End, data)
      else (Unquoted, AppendChar(data, c))
    case UnquotedEscaped => (Unquoted, AppendChar(data, c))
    case Quoted =>
      if c == '"' then (Unquoted, data)
      else if c == '\\' then (QuotedEscaped, AppendChar(data, c))
      else (Quoted, AppendChar(data, c))
    case QuotedEscaped => (Quoted, AppendChar(data, c))
  }

  /** The rest of one tokenizer call from state `st` with fields `data` built so
      far, over the unread characters `s`. In End one more character is read:
      a `\n` is consumed, anything else is pushed back. */
  function Scan(s: seq<char>, st: State, data: seq<string>, delimiter: char): (r: Line)
    requires |data| > 0
    ensures |data| <= |r.fields|
    ensures r.consumed <= |s|
    ensures st != Begin ==> r.ok
    ensures st == Begin ==> (r.ok <==> s != [])
    decreases |s|
  {
    if s == [] then Line(data, 0, st != Begin)
    else if st == End then Line(data, if s[0] == '\n' then 1 else 0, true)
    else
      var (next, data') := Step(st, data, s[0], delimiter);
      Shift(Scan(s[1..], next, data', delimiter), 1)
  }

  /** One call of `read_csv_line` on a stream whose unread text is `s`. */
  function ReadLine(s: seq<char>, delimiter: char): (r: Line)
    ensures r.ok <==> s != []
    ensures |r.fields| >= 1
    ensures r.ok ==> 1 <= r.consumed <= |s|
    ensures !r.ok ==> r == Line([""], 0, false)
  {
    Scan(s, Begin, [""], delimiter)
  }

  /** Reads and tokenizes one logical line from `input`. */
  method ReadCsvLine(input: CharStream, delimiter: char) returns (ok: bool, data: seq<string>)
    requires input.Valid()
    modifies input`pos
    ensures input.Valid()
    ensures var r := ReadLine(old(input.Rest()), delimiter);
      ok == r.ok && data == r.fields && input.pos == old(input.pos) + r.consumed
  {
    ghost var goal := ReadLine(input.Rest(), delimiter);
    data := [""];
    var state := Begin;
    var done := false;
    while !done
      invariant input.Valid() && old(input.pos) <= input.pos
      invariant |data| > 0
      invariant !done ==> goal == Shift(Scan(input.Rest(), state, data, delimiter), input.pos - old(input.pos))
      invariant done ==> goal == Line(data, input.pos - old(input.pos), state != Begin)
      decreases |input.text| - input.pos + (if done then 0 else 1)
    {
      ghost var rest := input.Rest();
      var got, c := input.Get();
      if !got {
        done := true;
      } else {
        assert rest[0] == c && rest[1..] == input.Rest();
        match state {
          case Begin | Unquoted =>
            state := Unquoted;
            if c == '"' {
              state := Quoted;
            } else if c == '\\' {
              state := UnquotedEscaped;
              data := AppendChar(data, c);
            } else if c == delimiter {
              data := data + [""];
            } else if c == '\n' || c == '\r' {
              state := End;
            } else {
              data := AppendChar(data, c);
            }
          case UnquotedEscaped =>
            data := AppendChar(data, c);
            state := Unquoted;
          case Quoted =>
            if c == '"' {
              state := Unquoted;
            } else if c == '\\' {
              state := QuotedEscaped;
              data := AppendChar(data, c);
            } else {
              data := AppendChar(data, c);
            }
          case QuotedEscaped =>
            data := AppendChar(data, c);
            state := Quoted;
          case End =>
            if c != '\n' {
              input.Unget();
            }
            done := true;
        }
      }
    }
    ok := state != Begin;
  }
}

=== FILE: tokenizer_props.dfy ===
/** What csvstream.hpp's tokenizer promises, proved about `Tokenizer.Scan`. */
module TokenizerProps {
  import opened CsvTypes
  import opened Tokenizer

  /** Fields already closed by a delimiter are never changed again, and the
      open field is only ever appended to. */
  lemma {:induction false} ScanKeepsClosedFields(s: seq<char>, st: State, data: seq<string>, delimiter: char)
    requires |data| > 0
    ensures Scan(s, st, data, delimiter).fields[..|data| - 1] == data[..|data| - 1]
    ensures data[|data| - 1] <= Scan(s, st, data, delimiter).fields[|data| - 1]
    decreases |s|
  {
    if s != [] && st != End {
      var (next, data') := Step(st, data, s[0], delimiter);
      ScanKeepsClosedFields(s[1..], next, data', delimiter);
      var r := Scan(s[1..], next, data', delimiter).fields;
      assert r[..|data| - 1] == r[..|data'| - 1][..|data| - 1];
      if |data'| > |data| {
        assert r[..|data'| - 1][|data| - 1] == data[|data| - 1];
      } else {
        assert data[|data| - 1] <= data'[|data| - 1];
      }
    }
  }

  predicate InQuotes(st: State)
  {
    st == Quoted || st == QuotedEscaped
  }

  predicate AfterBackslash(st: State)
  {
    st == UnquotedEscaped || st == QuotedEscaped
  }

  /** A reference count of the field separators on a line: delimiters that are
      neither inside double quotes nor right after a backslash, up to the first
      line terminator outside quotes. */
  function Separators(s: seq<char>, delimiter: char, quoted: bool, escaped: bool): nat
    decreases |s|
  {
    if s == [] then 0
    else if escaped then Separators(s[1..], delimiter, quoted, false)
    else if s[0] == '"' then Separators(s[1..], delimiter, !quoted, false)
    else if s[0] == '\\' then Separators(s[1..], delimiter, quoted, true)
    else if quoted then Separators(s[1..], delimiter, true, false)
    else if s[0] == delimiter then 1 + Separators(s[1..], delimiter, false, false)
    else if IsTerminator(s[0]) then 0
    else Separators(s[1..], delimiter, false, false)
  }

  lemma {:induction false} ScanFieldCount(s: seq<char>, st: State, data: seq<string>, delimiter: char)
    requires |data| > 0 && st != End
    ensures |Scan(s, st, data, delimiter).fields|
         == |data| + Separators(s, delimiter, InQuotes(st), AfterBackslash(st))
    decreases |s|
  {
    if s != [] {
      var (next, data') := Step(st, data, s[0], delimiter);
      if next != End {
        ScanFieldCount(s[1..], next, data', delimiter);
      }
    }
  }

  /** The number of fields is one more than the number of separators read. */
  lemma FieldCount(s: seq<char>, delimiter: char)
    ensures |ReadLine(s, delimiter).fields| == 1 + Separators(s, delimiter, false, false)
  {
    ScanFieldCount(s, Begin, [""], delimiter);
  }

  /** The plain statement for text without backslashes: no double quote is
      ever added. It is not a consequence of EscapesOnly, which allows escape
      pairs in a field, so it has its own induction. */
  lemma {:induction false} ScanNoQuotes(s: seq<char>, st: State, data: seq<string>, delimiter: char)
    requires |data| > 0 && QuoteFree(data) && '\\' !in s && !AfterBackslash(st)
    ensures QuoteFree(Scan(s, st, data, delimiter).fields)
    decreases |s|
  {
    if s != [] && st != End {
      var (next, data') := Step(st, data, s[0], delimiter);
      assert s[0] != '\\';
      assert forall c :: c in s[1..] ==> c in s;
      ScanNoQuotes(s[1..], next, data', delimiter);
    }
  }

  /** On a line without backslashes, no field contains a double quote. */
  lemma QuotesNeverKept(s: seq<char>, delimiter: char)
    requires '\\' !in s
    ensures QuoteFree(ReadLine(s, delimiter).fields)
  {
    ScanNoQuotes(s, Begin, [""], delimiter);
  }

  /** Every double quote kept in a field comes right after a backslash. */
  predicate QuotesEscaped(data: seq<string>)
  {
    forall i, k :: 0 <= i < |data| && 0 <= k < |data[i]| && data[i][k] == '"' ==>
      0 < k && data[i][k - 1] == '\\'
  }

  /** A field made only of escape pairs (a backslash and any character after
      it) and of characters that are neither a backslash nor a double quote:
      every `"` in it is the second half of an escape pair. */
  predicate Complete(f: string)
    decreases |f|
  {
    if f == [] then true
    else if f[0] == '\\' then |f| >= 2 && Complete(f[2..])
    else f[0] != '"' && Complete(f[1..])
  }

  /** What a field can be: Complete, or Complete followed by one backslash when
      the text ends right after it. */
  predicate WellEscaped(f: string)
  {
    Complete(f) || (|f| > 0 && f[|f| - 1] == '\\' && Complete(f[..|f| - 1]))
  }

  lemma {:induction false} CompletePlain(f: string, c: char)
    requires Complete(f) && c != '\\' && c != '"'
    ensures Complete(f + [c])
    decreases |f|
  {
    if f == [] {
      assert ([] + [c])[1..] == [];
    } else if f[0] == '\\' {
      assert (f + [c])[2..] == f[2..] + [c];
      CompletePlain(f[2..], c);
    } else {
      assert (f + [c])[1..] == f[1..] + [c];
      CompletePlain(f[1..], c);
    }
  }

  lemma {:induction false} CompletePair(f: string, x: char)
    requires Complete(f)
    ensures Complete(f + ['\\', x])
    decreases |f|
  {
    if f == [] {
      assert ([] + ['\\', x])[2..] == [];
    } else if f[0] == '\\' {
      assert (f + ['\\', x])[2..] == f[2..] + ['\\', x];
      CompletePair(f[2..], x);
    } else {
      assert (f + ['\\', x])[1..] == f[1..] + ['\\', x];
      CompletePair(f[1..], x);
    }
  }

  /** The invariant of the scan: closed fields are Complete; the open field is
      Complete, with one trailing backslash in an escaped state. */
  predicate EscapesHold(st: State, data: seq<string>)
    requires |data| > 0
  {
    var f := data[|data| - 1];
    (forall i :: 0 <= i < |data| - 1 ==> Complete(data[i])) &&
    if AfterBackslash(st) then |f| > 0 && f[|f| - 1] == '\\' && Complete(f[..|f| - 1])
    else Complete(f)
  }

  /** Appending a character to the open field leaves the closed fields as they
      were, and keeps the invariant when the character fits the states. */
  lemma AppendKeepsEscapes(st: State, next: State, data: seq<string>, c: char)
    requires |data| > 0 && EscapesHold(st, data)
    requires AfterBackslash(st) ==> !AfterBackslash(next)
    requires !AfterBackslash(st) ==> (AfterBackslash(next) <==> c == '\\') && c != '"'
    ensures EscapesHold(next, AppendChar(data, c))
  {
    var data' := AppendChar(data, c);
    var n := |data| - 1;
    var f := data[n];
    assert forall i :: 0 <= i < n ==> data'[i] == data'[..n][i] == data[..n][i] == data[i];
    if AfterBackslash(st) {
      assert f == f[..|f| - 1] + ['\\'];
      CompletePair(f[..|f| - 1], c);
      assert data'[n] == f[..|f| - 1] + ['\\', c];
    } else if AfterBackslash(next) {
      assert data'[n][..|data'[n]| - 1] == f;
    } else {
      CompletePlain(f, c);
    }
  }

  /** Closing the open field keeps the invariant outside an escaped state. */
  lemma NewFieldKeepsEscapes(st: State, data: seq<string>)
    requires |data| > 0 && EscapesHold(st, data) && !AfterBackslash(st)
    ensures EscapesHold(Unquoted, data + [""])
  {
    assert forall i :: 0 <= i < |data| ==> (data + [""])[i] == data[i];
  }

  /** One step of the tokenizer keeps the invariant. */
  lemma StepKeepsEscapes(st: State, data: seq<string>, c: char, delimiter: char)
    requires |data| > 0 && st != End && EscapesHold(st, data)
    ensures var (next, data') := Step(st, data, c, delimiter);
      |data'| > 0 && EscapesHold(next, data')
  {
    var (next, data') := Step(st, data, c, delimiter);
    if AfterBackslash(st) {
      AppendKeepsEscapes(st, next, data, c);
    } else if c == '"' || (!InQuotes(st) && c != '\\' && (c == delimiter || IsTerminator(c))) {
      if data' != data {
        NewFieldKeepsEscapes(st, data);
      }
    } else {
      AppendKeepsEscapes(st, next, data, c);
    }
  }

  lemma {:induction false} ScanKeepsEscapes(s: seq<char>, st: State, data: seq<string>, delimiter: char)
    requires |data| > 0 && EscapesHold(st, data)
    ensures var r := Scan(s, st, data, delimiter).fields;
      (forall i :: 0 <= i < |r| - 1 ==> Complete(r[i])) && WellEscaped(r[|r| - 1])
    decreases |s|
  {
    if s != [] && st != End {
      var (next, data') := Step(st, data, s[0], delimiter);
      StepKeepsEscapes(st, data, s[0], delimiter);
      ScanKeepsEscapes(s[1..], next, data', delimiter);
    }
  }

  /** A field that is not Complete comes from a scan that read the whole text
      and ended right after a backslash (or started in an escaped state with
      nothing left to read). */
  lemma {:induction false} ScanLoneBackslash(s: seq<char>, st: State, data: seq<string>, delimiter: char)
    requires |data| > 0 && EscapesHold(st, data)
    ensures var r := Scan(s, st, data, delimiter);
      !Complete(r.fields[|r.fields| - 1]) ==>
        r.consumed == |s| && (if s == [] then AfterBackslash(st) else s[|s| - 1] == '\\')
    decreases |s|
  {
    if s != [] && st != End {
      var (next, data') := Step(st, data, s[0], delimiter);
      StepKeepsEscapes(st, data, s[0], delimiter);
      ScanLoneBackslash(s[1..], next, data', delimiter);
      if s[1..] != [] {
        assert s[1..][|s[1..]| - 1] == s[|s| - 1];
      }
    }
  }

  /** Whatever the input, an unescaped double quote is never kept: every field
      consists of escape pairs and of characters other than `\` and `"`; only
      the last field may end in a lone backslash, and only when the call read
      the whole text and its last character is that backslash. */
  lemma EscapesOnly(s: seq<char>, delimiter: char)
    ensures var r := ReadLine(s, delimiter).fields;
      (forall i :: 0 <= i < |r| - 1 ==> Complete(r[i])) && WellEscaped(r[|r| - 1])
    ensures var r := ReadLine(s, delimiter);
      !Complete(r.fields[|r.fields| - 1]) ==> r.consumed == |s| && |s| > 0 && s[|s| - 1] == '\\'
  {
    ScanKeepsEscapes(s, Begin, [""], delimiter);
    ScanLoneBackslash(s, Begin, [""], delimiter);
  }

  /** In a Complete field every `"` directly follows a backslash. */
  lemma {:induction false} CompleteQuotes(f: string)
    requires Complete(f)
    ensures forall k :: 0 <= k < |f| && f[k] == '"' ==> 0 < k && f[k - 1] == '\\'
    decreases |f|
  {
    if f != [] {
      var d := if f[0] == '\\' then 2 else 1;
      CompleteQuotes(f[d..]);
      forall k | 0 <= k < |f| && f[k] == '"'
        ensures 0 < k && f[k - 1] == '\\'
      {
        if k >= d {
          assert f[k] == f[d..][k - d];
          if k > d {
            assert f[k - 1] == f[d..][k - d - 1];
          }
        }
      }
    }
  }

  /** A weaker consequence of EscapesOnly, for all input: every `"` in a field
      directly follows a backslash. */
  lemma QuotesOnlyEscaped(s: seq<char>, delimiter: char)
    ensures QuotesEscaped(ReadLine(s, delimiter).fields)
  {
    var r := ReadLine(s, delimiter).fields;
    EscapesOnly(s, delimiter);
    forall i | 0 <= i < |r|
      ensures forall k :: 0 <= k < |r[i]| && r[i][k] == '"' ==> 0 < k && r[i][k - 1] == '\\'
    {
      var f := r[i];
      if Complete(f) {
        CompleteQuotes(f);
      } else {
        var g := f[..|f| - 1];
        CompleteQuotes(g);
        assert forall k :: 0 <= k < |g| ==> f[k] == g[k];
      }
    }
  }

  /** An escaped backslash followed by a double quote: the pair `\\` is
      kept, and the quote after it opens quoting instead of being kept. A field
      `\\"x`, which a tokenizer that kept that quote would yield, is not
      WellEscaped, so EscapesOnly rules it out. */
  lemma EscapedBackslashThenQuote(t: seq<char>, data: seq<string>, delimiter: char)
    requires |data| > 0
    ensures Scan(['\\', '\\', '"'] + t, Unquoted, data, delimiter)
         == Shift(Scan(t, Quoted, AppendChar(AppendChar(data, '\\'), '\\'), delimiter), 3)
    ensures !WellEscaped("\\\\\"x")
  {
    var u := ['"'] + t;
    assert ['\\', '\\', '"'] + t == ['\\', '\\'] + u;
    EscapedPair('\\', u, Unquoted, data, delimiter);
    assert u[0] == '"' && u[1..] == t;
    var f := "\\\\\"x";
    assert f[2..] == "\"x";
    assert f[..|f| - 1] == "\\\\\"";
  }

  /** A backslash is kept in the field and the character after it is appended
      whatever it is, inside or outside quotes; the state is the same after
      the pair as before it. */
  lemma EscapedPair(c: char, t: seq<char>, st: State, data: seq<string>, delimiter: char)
    requires |data| > 0 && (st == Unquoted || st == Quoted)
    ensures Scan(['\\', c] + t, st, data, delimiter)
         == Shift(Scan(t, st, AppendChar(AppendChar(data, '\\'), c), delimiter), 2)
  {
    var s := ['\\', c] + t;
    assert s[1..] == [c] + t && s[1..][1..] == t;
  }

  /** A line stops only right after a line terminator read outside quotes (and
      its optional `\n`), or at the end of the text: no character after the
      line is consumed. */
  lemma {:induction false} ScanStopsAfterTerminator(s: seq<char>, st: State, data: seq<string>, delimiter: char)
    requires |data| > 0 && st != End
    ensures var r := Scan(s, st, data, delimiter);
      r.consumed < |s| ==> 0 < r.consumed && IsTerminator(s[r.consumed - 1])
    decreases |s|
  {
    if s != [] {
      var (next, data') := Step(st, data, s[0], delimiter);
      if next != End {
        ScanStopsAfterTerminator(s[1..], next, data', delimiter);
      } else {
        assert IsTerminator(s[0]);
      }
    }
  }

  lemma StopsAfterTerminator(s: seq<char>, delimiter: char)
    ensures var r := ReadLine(s, delimiter);
      r.consumed < |s| ==> 0 < r.consumed && IsTerminator(s[r.consumed - 1])
  {
    ScanStopsAfterTerminator(s, Begin, [""], delimiter);
  }

  /** A reference for where a line ends: the index of the first `\n` or `\r`
      read as a line terminator (neither inside double quotes, nor right after
      a backslash, nor the delimiter), or `|s|` when there is none. */
  function TerminatorIndex(s: seq<char>, delimiter: char, quoted: bool, escaped: bool): (k: nat)
    ensures k <= |s|
    ensures k < |s| ==> IsTerminator(s[k])
    decreases |s|
  {
    if s == [] then 0
    else if escaped then 1 + TerminatorIndex(s[1..], delimiter, quoted, false)
    else if s[0] == '"' then 1 + TerminatorIndex(s[1..], delimiter, !quoted, false)
    else if s[0] == '\\' then 1 + TerminatorIndex(s[1..], delimiter, quoted, true)
    else if quoted || s[0] == delimiter || !IsTerminator(s[0]) then 1 + TerminatorIndex(s[1..], delimiter, quoted, false)
    else 0
  }

  /** The exact stop point: everything up to and including that terminator is
      consumed, plus one `\n` right after it; nothing else. */
  function StopPoint(s: seq<char>, k: nat): nat
    requires k <= |s|
  {
    if k == |s| then k
    else if k + 1 < |s| && s[k + 1] == '\n' then k + 2
    else k + 1
  }

  /** One step of the reference: a terminator read in Unquoted ends the line
      at index 0; any other step moves the index on by one. */
  lemma TerminatorIndexStep(s: seq<char>, st: State, data: seq<string>, delimiter: char)
    requires |data| > 0 && st != End && s != []
    ensures var next := Step(st, data, s[0], delimiter).0;
      var k := TerminatorIndex(s, delimiter, InQuotes(st), AfterBackslash(st));
      if next == End then k == 0
      else k == 1 + TerminatorIndex(s[1..], delimiter, InQuotes(next), AfterBackslash(next))
  {
  }

  lemma {:induction false} ScanStopPoint(s: seq<char>, st: State, data: seq<string>, delimiter: char)
    requires |data| > 0 && st != End
    ensures Scan(s, st, data, delimiter).consumed
         == StopPoint(s, TerminatorIndex(s, delimiter, InQuotes(st), AfterBackslash(st)))
    decreases |s|
  {
    if s != [] {
      var (next, data') := Step(st, data, s[0], delimiter);
      TerminatorIndexStep(s, st, data, delimiter);
      assert Scan(s, st, data, delimiter) == Shift(Scan(s[1..], next, data', delimiter), 1);
      if next != End {
        ScanStopPoint(s[1..], next, data', delimiter);
        var k := TerminatorIndex(s[1..], delimiter, InQuotes(next), AfterBackslash(next));
        assert k + 2 < |s| ==> s[1..][k + 1] == s[k + 2];
      } else {
        assert s[1..] != [] ==> s[1..][0] == s[1];
      }
    }
  }

  /** A call consumes exactly the line up to its terminator, with a single
      following `\n`; any other following character is left unread. */
  lemma ExactStop(s: seq<char>, delimiter: char)
    ensures ReadLine(s, delimiter).consumed == StopPoint(s, TerminatorIndex(s, delimiter, false, false))
  {
    ScanStopPoint(s, Begin, [""], delimiter);
  }

  /** Inside quotes every character of a plain field is content, including the
      delimiter and line terminators; the closing quote returns to Unquoted. */
  lemma {:induction false} QuotedContent(f: string, t: seq<char>, data: seq<string>, delimiter: char)
    requires |data| > 0 && Plain(f)
    ensures Scan(f + ['"'] + t, Quoted, data, delimiter)
         == Shift(Scan(t, Unquoted, data[..|data| - 1] + [data[|data| - 1] + f], delimiter), |f| + 1)
    decreases |f|
  {
    var s := f + ['"'] + t;
    if f == [] {
      assert s[0] == '"' && s[1..] == t;
      assert data[|data| - 1] + f == data[|data| - 1];
      assert data[..|data| - 1] + [data[|data| - 1]] == data;
    } else {
      assert s[0] == f[0] && s[1..] == f[1..] + ['"'] + t;
      assert f[0] in f;
      var data' := AppendChar(data, f[0]);
      assert Plain(f[1..]) by { assert forall c :: c in f[1..] ==> c in f; }
      QuotedContent(f[1..], t, data', delimiter);
      assert data'[..|data'| - 1] + [data'[|data'| - 1] + f[1..]]
          == data[..|data| - 1] + [data[|data| - 1] + f] by {
        assert data'[..|data'| - 1] == data[..|data| - 1];
        assert data'[|data'| - 1] + f[1..] == data[|data| - 1] + [f[0]] + f[1..];
        assert [f[0]] + f[1..] == f;
        assert data[|data| - 1] + [f[0]] + f[1..] == data[|data| - 1] + f;
      }
    }
  }

  /** One quoted plain field, from its opening quote to its closing quote. */
  lemma QuotedField(f: string, t: seq<char>, data: seq<string>, delimiter: char)
    requires Plain(f)
    ensures Scan(Quote(f) + t, Unquoted, data + [""], delimiter)
         == Shift(Scan(t, Unquoted, data + [f], delimiter), |f| + 2)
  {
    var s := Quote(f) + t;
    var d := data + [""];
    assert s[0] == '"' && s[1..] == f + ['"'] + t;
    assert Scan(s, Unquoted, d, delimiter) == Shift(Scan(s[1..], Quoted, d, delimiter), 1);
    QuotedContent(f, t, d, delimiter);
    assert d[..|d| - 1] == data && d[|d| - 1] + f == f;
  }

  /** A delimiter read outside quotes opens a new empty field. */
  lemma Separator(t: seq<char>, data: seq<string>, delimiter: char)
    requires |data| > 0 && delimiter != '"' && delimiter != '\\'
    ensures Scan([delimiter] + t, Unquoted, data, delimiter)
         == Shift(Scan(t, Unquoted, data + [""], delimiter), 1)
  {
    assert ([delimiter] + t)[1..] == t;
  }

  /** A quoted field and the delimiter after it close that field and open a
      new empty one. */
  lemma QuotedThenSeparator(f: string, u: seq<char>, data: seq<string>, delimiter: char)
    requires Plain(f) && delimiter != '"' && delimiter != '\\'
    ensures Scan(Quote(f) + ([delimiter] + u), Unquoted, data + [""], delimiter)
         == Shift(Scan(u, Unquoted, data + [f] + [""], delimiter), |f| + 3)
  {
    QuotedField(f, [delimiter] + u, data, delimiter);
    Separator(u, data + [f], delimiter);
  }

  /** A quoted field followed by a delimiter, in front of the fields after it. */
  lemma LeadingField(f: string, others: seq<string>, t: seq<char>, data: seq<string>, delimiter: char)
    requires Plain(f) && |others| > 0 && delimiter != '"' && delimiter != '\\'
    requires Scan(EncodeLine(others, delimiter) + t, Unquoted, data + [f] + [""], delimiter)
          == Shift(Scan(t, Unquoted, data + [f] + others, delimiter), |EncodeLine(others, delimiter)|)
    ensures Scan(EncodeLine([f] + others, delimiter) + t, Unquoted, data + [""], delimiter)
         == Shift(Scan(t, Unquoted, data + ([f] + others), delimiter), |EncodeLine([f] + others, delimiter)|)
  {
    var e' := EncodeLine(others, delimiter);
    assert ([f] + others)[0] == f && ([f] + others)[1..] == others;
    assert EncodeLine([f] + others, delimiter) + t == Quote(f) + ([delimiter] + (e' + t));
    QuotedThenSeparator(f, e' + t, data, delimiter);
    assert data + [f] + others == data + ([f] + others);
  }

  lemma {:induction false} EncodedFields(fields: seq<string>, t: seq<char>, data: seq<string>, delimiter: char)
    requires |fields| > 0 && (forall i :: 0 <= i < |fields| ==> Plain(fields[i]))
    requires delimiter != '"' && delimiter != '\\'
    ensures Scan(EncodeLine(fields, delimiter) + t, Unquoted, data + [""], delimiter)
         == Shift(Scan(t, Unquoted, data + fields, delimiter), |EncodeLine(fields, delimiter)|)
    decreases |fields|
  {
    var f := fields[0];
    assert Plain(f);
    if |fields| == 1 {
      QuotedField(f, t, data, delimiter);
      assert data + [f] == data + fields;
    } else {
      assert forall i :: 0 <= i < |fields| - 1 ==> Plain(fields[1..][i]);
      EncodedFields(fields[1..], t, data + [f], delimiter);
      LeadingField(f, fields[1..], t, data, delimiter);
      assert [f] + fields[1..] == fields;
    }
  }

  /** After an unquoted `\n` or `\r` one more character is looked at: only a
      `\n` is consumed with it. A single `\n` or `\r` followed by `\n` therefore
      also swallows that `\n`. */
  lemma LineEnd(term: seq<char>, rest: seq<char>, data: seq<string>, delimiter: char)
    requires |data| > 0 && !IsTerminator(delimiter)
    requires term == "\n" || term == "\r" || term == "\r\n"
    ensures Scan(term + rest, Unquoted, data, delimiter)
         == Line(data, if term == "\r\n" || (rest != [] && rest[0] == '\n') then 2 else 1, true)
  {
    var s := term + rest;
    assert s[0] == term[0] && IsTerminator(s[0]);
    assert Step(Unquoted, data, s[0], delimiter) == (End, data);
    assert Scan(s, Unquoted, data, delimiter) == Shift(Scan(s[1..], End, data, delimiter), 1);
    if term == "\r\n" {
      assert s[1..][0] == '\n';
    } else if rest != [] {
      assert s[1..] == rest;
    } else {
      assert s[1..] == [];
    }
  }

  /** A tokenizer call on a line written by the reference writer reads its
      fields and goes on with whatever follows, in state Unquoted. */
  lemma EncodedLine(fields: seq<string>, u: seq<char>, delimiter: char)
    requires |fields| > 0 && (forall i :: 0 <= i < |fields| ==> Plain(fields[i]))
    requires delimiter != '"' && delimiter != '\\'
    ensures ReadLine(EncodeLine(fields, delimiter) + u, delimiter)
         == Shift(Scan(u, Unquoted, fields, delimiter), |EncodeLine(fields, delimiter)|)
  {
    var s := EncodeLine(fields, delimiter) + u;
    assert Scan(s, Begin, [""], delimiter) == Scan(s, Unquoted, [""], delimiter);
    EncodedFields(fields, u, [], delimiter);
    assert [] + [""] == [""] && [] + fields == fields;
  }

  /** Reading back what the reference writer produced: a line of quoted plain
      fields, ended by `\n`, `\r`, `\r\n` or by the end of the text, yields
      exactly those fields and consumes exactly that line. After a lone `\n` or
      `\r` the next character must not be `\n` (see BlankLineSwallowed). */
  lemma RoundTrip(fields: seq<string>, delimiter: char, term: seq<char>, rest: seq<char>)
    requires |fields| > 0 && (forall i :: 0 <= i < |fields| ==> Plain(fields[i]))
    requires delimiter != '"' && delimiter != '\\' && !IsTerminator(delimiter)
    requires term == "" || term == "\n" || term == "\r" || term == "\r\n"
    requires term == "" ==> rest == []
    requires term != "\r\n" && rest != [] ==> rest[0] != '\n'
    ensures ReadLine(EncodeLine(fields, delimiter) + term + rest, delimiter)
         == Line(fields, |EncodeLine(fields, delimiter)| + |term|, true)
  {
    var e := EncodeLine(fields, delimiter);
    assert e + term + rest == e + (term + rest);
    EncodedLine(fields, term + rest, delimiter);
    if term != "" {
      LineEnd(term, rest, fields, delimiter);
    } else {
      assert term + rest == [];
    }
  }

  /** The quirk of the End state: after a line ending in a single `\n`, an
      immediately following empty line is consumed with it and never read as a
      row of its own. */
  lemma BlankLineSwallowed(fields: seq<string>, delimiter: char, rest: seq<char>)
    requires |fields| > 0 && (forall i :: 0 <= i < |fields| ==> Plain(fields[i]))
    requires delimiter != '"' && delimiter != '\\' && !IsTerminator(delimiter)
    ensures ReadLine(EncodeLine(fields, delimiter) + "\n\n" + rest, delimiter)
         == Line(fields, |EncodeLine(fields, delimiter)| + 2, true)
  {
    var e := EncodeLine(fields, delimiter);
    assert e + "\n\n" + rest == e + ("\n" + ("\n" + rest));
    EncodedLine(fields, "\n" + ("\n" + rest), delimiter);
    LineEnd("\n", "\n" + rest, fields, delimiter);
  }

  /** A quoted field keeps the delimiter it contains. */
  lemma QuotedDelimiterKept()
    ensures ReadLine("\"4,44\"", ',') == Line(["4,44"], 6, true)
  {
    RoundTrip(["4,44"], ',', "", []);
    assert EncodeLine(["4,44"], ',') + "" + [] == "\"4,44\"";
  }

  /** A doubled double quote is not an escaped quote: each `"` only toggles
      quoting, so `"a""b"` reads as the single field `ab`. */
  lemma DoubledQuoteIsNoEscape(a: string, b: string, delimiter: char)
    requires Plain(a) && Plain(b)
    ensures ReadLine(Quote(a) + Quote(b), delimiter) == Line([a + b], |a| + |b| + 4, true)
  {
    var s := Quote(a) + Quote(b);
    assert s == Quote(a) + Quote(b) + [];
    assert Scan(s, Begin, [""], delimiter) == Scan(s, Unquoted, [""], delimiter);
    QuotedField(a, Quote(b), [], delimiter);
    assert [] + [""] == [""] && [] + [a] == [a];
    var q := Quote(b);
    assert q[0] == '"' && q[1..] == b + ['"'] + [];
    QuotedContent(b, [], [a], delimiter);
    assert [a][..0] + [[a][0] + b] == [a + b];
  }

  /** A field the tokenizer reads verbatim outside quotes: no double quote, no
      backslash, no delimiter and no line terminator. */
  predicate Bare(f: string, delimiter: char)
  {
    '"' !in f && '\\' !in f && delimiter !in f && '\n' !in f && '\r' !in f
  }

  /** Outside quotes, every character of a bare field is appended as it is. */
  lemma {:induction false} BareContent(f: string, t: seq<char>, data: seq<string>, delimiter: char)
    requires |data| > 0 && Bare(f, delimiter)
    ensures Scan(f + t, Unquoted, data, delimiter)
         == Shift(Scan(t, Unquoted, data[..|data| - 1] + [data[|data| - 1] + f], delimiter), |f|)
    decreases |f|
  {
    var s := f + t;
    if f == [] {
      assert s == t;
      assert data[|data| - 1] + f == data[|data| - 1];
      assert data[..|data| - 1] + [data[|data| - 1]] == data;
    } else {
      assert s[0] == f[0] && s[1..] == f[1..] + t;
      assert f[0] in f;
      var data' := AppendChar(data, f[0]);
      assert Step(Unquoted, data, f[0], delimiter) == (Unquoted, data');
      assert Scan(s, Unquoted, data, delimiter) == Shift(Scan(s[1..], Unquoted, data', delimiter), 1);
      assert Bare(f[1..], delimiter) by { assert forall c :: c in f[1..] ==> c in f; }
      BareContent(f[1..], t, data', delimiter);
      AppendThenExtend(data, f);
    }
  }

  /** A bare field and the delimiter after it close that field and open a new
      empty one. */
  lemma BareThenSeparator(f: string, u: seq<char>, data: seq<string>, delimiter: char)
    requires Bare(f, delimiter) && delimiter != '"' && delimiter != '\\'
    ensures Scan(f + ([delimiter] + u), Unquoted, data + [""], delimiter)
         == Shift(Scan(u, Unquoted, data + [f] + [""], delimiter), |f| + 1)
  {
    BareContent(f, [delimiter] + u, data + [""], delimiter);
    assert (data + [""])[..|data|] == data && (data + [""])[|data|] + f == f;
    Separator(u, data + [f], delimiter);
  }

  /** A bare field followed by a delimiter, in front of the fields after it. */
  lemma BareLeadingField(f: string, others: seq<string>, t: seq<char>, data: seq<string>, delimiter: char)
    requires Bare(f, delimiter) && |others| > 0 && delimiter != '"' && delimiter != '\\'
    requires Scan(JoinLine(others, delimiter) + t, Unquoted, data + [f] + [""], delimiter)
          == Shift(Scan(t, Unquoted, data + [f] + others, delimiter), |JoinLine(others, delimiter)|)
    ensures Scan(JoinLine([f] + others, delimiter) + t, Unquoted, data + [""], delimiter)
         == Shift(Scan(t, Unquoted, data + ([f] + others), delimiter), |JoinLine([f] + others, delimiter)|)
  {
    var j := JoinLine(others, delimiter);
    JoinLineCons(f, others, delimiter, t);
    BareThenSeparator(f, j + t, data, delimiter);
    assert data + [f] + others == data + ([f] + others);
  }

  /** Bare fields joined by the delimiter yield exactly those fields, whatever
      text follows. */
  lemma {:induction false} JoinedFields(fields: seq<string>, t: seq<char>, data: seq<string>, delimiter: char)
    requires |fields| > 0 && (forall i :: 0 <= i < |fields| ==> Bare(fields[i], delimiter))
    requires delimiter != '"' && delimiter != '\\'
    ensures Scan(JoinLine(fields, delimiter) + t, Unquoted, data + [""], delimiter)
         == Shift(Scan(t, Unquoted, data + fields, delimiter), |JoinLine(fields, delimiter)|)
    decreases |fields|
  {
    var f := fields[0];
    assert Bare(f, delimiter);
    if |fields| == 1 {
      BareContent(f, t, data + [""], delimiter);
      assert (data + [""])[..|data|] == data && (data + [""])[|data|] + f == f;
      assert data + [f] == data + fields;
    } else {
      assert forall i :: 0 <= i < |fields| - 1 ==> Bare(fields[1..][i], delimiter);
      JoinedFields(fields[1..], t, data + [f], delimiter);
      BareLeadingField(f, fields[1..], t, data, delimiter);
      assert [f] + fields[1..] == fields;
    }
  }

  /** Reading back a line of bare fields: joined by the delimiter and ended by
      `\n`, `\r`, `\r\n` or by the end of the text, the line yields exactly
      those fields and consumes exactly that line. An empty text is the end of
      the input, not a line of one empty field. */
  lemma BareRoundTrip(fields: seq<string>, delimiter: char, term: seq<char>, rest: seq<char>)
    requires |fields| > 0 && (forall i :: 0 <= i < |fields| ==> Bare(fields[i], delimiter))
    requires delimiter != '"' && delimiter != '\\' && !IsTerminator(delimiter)
    requires term == "" || term == "\n" || term == "\r" || term == "\r\n"
    requires term == "" ==> rest == [] && (|fields| > 1 || fields[0] != "")
    requires term != "\r\n" && rest != [] ==> rest[0] != '\n'
    ensures ReadLine(JoinLine(fields, delimiter) + term + rest, delimiter)
         == Line(fields, |JoinLine(fields, delimiter)| + |term|, true)
  {
    var j := JoinLine(fields, delimiter);
    var s := j + (term + rest);
    assert j + term + rest == s;
    assert s != [] by {
      if term == "" && |fields| == 1 { assert j == fields[0]; }
      else if term == "" { assert delimiter in j; }
      else { assert s[|j|] == term[0]; }
    }
    assert Scan(s, Begin, [""], delimiter) == Scan(s, Unquoted, [""], delimiter);
    JoinedFields(fields, term + rest, [], delimiter);
    assert [] + [""] == [""] && [] + fields == fields;
    if term != "" {
      LineEnd(term, rest, fields, delimiter);
    } else {
      assert term + rest == [];
    }
  }

  /** Unquoted fields are read as they are, an old Mac `\r` ends a line, and
      a line of delimiters alone yields empty fields. */
  lemma BareLines()
    ensures ReadLine("1,2,3\r", ',') == Line(["1", "2", "3"], 6, true)
    ensures ReadLine(",,", ',') == Line(["", "", ""], 2, true)
  {
    BareRoundTrip(["1", "2", "3"], ',', "\r", []);
    assert JoinLine(["1", "2", "3"], ',') + "\r" + [] == "1,2,3\r";
    BareRoundTrip(["", "", ""], ',', "", []);
    assert JoinLine(["", "", ""], ',') + "" + [] == ",,";
  }
}
